=== FILE: README.md ===
# Threat-mapping label engine, modelled in Dafny

The threat-mapping service maps a CVE description to CWE and CAPEC labels using a
text vectorizer and one multi-label classifier per taxonomy. This project models
its decision logic as pure Dafny functions and proves properties of them:

- **Probability normaliser** (`_ensure_probability_array`), in `normaliser.dfy`.
  A classifier's raw `predict_proba` output becomes one score matrix: `None`
  stays `None`; a list of per-class blocks is stacked side by side (a
  two-column block gives its positive column, any other 2-D block all of its
  columns, a 1-D block one column); a single array passes through.
  `np.hstack` failures are errors.
- **Ranking** (`np.argsort(scores)[::-1]`), in `ranking.dfy`. NumPy's default
  sort is not stable, so the tie order is not fixed. NumPy's answer is an
  arbitrary function carried by the artifacts (`Artifacts.argsort`), and every
  property downstream is proved for *any* permutation ordered by
  non-increasing score (`RanksDescending`) that it may return.
- **Label selector** (`_predict_labels`), in `selector.dfy`. It takes row 0,
  ranks it, slices `top_k`, drops scores below `threshold`, and names each kept
  index through `classes_`. When nothing is kept it falls back to the first
  `top_k` decoded hard labels, without scores.
- **Request pipeline**, in `service.dfy`. This covers `_run_prediction`: the
  blank-description 400, feature extraction, the CWE and then CAPEC width
  checks, prediction of both taxonomies, and the wrapping of other failures as
  a 500 "Prediction failed". It also covers the `predict_batch` mapping and the
  `_require_token` gate. The vectorizer and classifiers are pure functions held
  in an `Artifacts` value. What they compute is left abstract.
- **Training data preparation**, in `training.dfy`. `_parse_labels` treats `;`
  and `,` alike, strips tokens and drops empty ones. The per-row mapping and
  empty check of `load_dataset` run over rows given as maps.
- `text.dfy` holds the Python string operations the code relies on.
  `wrappers.dfy` holds `Option`, `Result` and `Outcome`.

Because every operation is a function of its inputs, repeated calls with the same
request and artifacts give the same answer.

## Model

| member | source | states |
|---|---|---|
| Normaliser.EnsureProbabilityArray | services/threat-model/main.py:103-120 | `None` maps to no matrix and nothing else does. A single array passes through unchanged. A per-class list succeeds exactly when it is non-empty and all blocks have the same number of rows, and the result then has that many rows. |
| Normaliser.HStack | services/threat-model/main.py:118 | Stacking succeeds exactly when there is at least one array and all have the same number of rows. The width is then the sum of the widths. An empty list and a row-count mismatch give NumPy's two distinct errors. |
| Normaliser.Contribution | services/threat-model/main.py:110-117 | A block adds as many rows as it has entries. It adds one column for a 1-D block or a two-column block. Any other 2-D block is appended as itself, all of its columns unchanged. |
| Normaliser.Contributions | services/threat-model/main.py:107-117 | Entry `j` of the list to stack is the contribution of block `j`, and the list is as long as the blocks. |
| Normaliser.AsColumn | services/threat-model/main.py:113-117 | `v[:, None]` is a one-column matrix whose only column is `v`. |
| Normaliser.Beside | services/threat-model/main.py:118 | In two arrays placed side by side, the left array's columns come first and the right array's columns follow at an offset of the left width. |
| Normaliser.Concat | services/threat-model/main.py:118 | Stacking a list keeps the common row count, and the width is the sum of the widths. |
| Normaliser.ContributionsWidth | services/threat-model/main.py:107-118 | The stacked width is the sum of the columns each block contributes. |
| Normaliser.ConcatColumn | services/threat-model/main.py:118 | Array `j` of a stack occupies the columns starting after the widths of the arrays before it. |
| Normaliser.NormalisedColumns | services/threat-model/main.py:107-118 | The normalised width is the sum over blocks of 1 (two-column or 1-D) or the block width. Block `j`'s columns appear, in list order, at the offset of the blocks before it. |
| Normaliser.PositiveColumnKept | services/threat-model/main.py:111-117 | A two-column block contributes exactly its column 1, and a 1-D block its values, at that block's offset. |
| Normaliser.WideBlockKept | services/threat-model/main.py:111-118 | Column `c` of a 2-D block whose width is not 2 is column `c` of the normalised matrix, at that block's offset plus `c`. |
| Ranking.RankDescending | services/threat-model/main.py:138 | One admissible ranking: a permutation of the class indices with non-increasing scores. It is used only in place of an answer NumPy never gives. |
| Ranking.Arrange | services/threat-model/main.py:138 | The ranking used is always a permutation of the class indices by non-increasing score. Whenever NumPy's answer is such a permutation, it is used unchanged, so every tie order NumPy may choose is covered and none is assumed. |
| Ranking.TiesEitherWay | services/threat-model/main.py:138 | Both orders of two equal scores are admissible rankings. |
| Ranking.RankPrefix | services/threat-model/main.py:138 | Ranking the first `n` indices gives each of them exactly once, in non-increasing score order. |
| Ranking.InsertRanked | services/threat-model/main.py:138 | Inserting an index adds exactly that index. |
| Ranking.InsertRankedDescending | services/threat-model/main.py:138 | Inserting keeps a ranking in non-increasing score order. |
| Ranking.InsertRankedDistinct | services/threat-model/main.py:138 | Inserting a new index keeps a ranking free of duplicates. |
| Ranking.InsertRankedInRange | services/threat-model/main.py:138 | Inserting an in-range index keeps every index in range. |
| Selector.Passing | services/threat-model/main.py:139-142 | The filter keeps an index exactly when it occurs in the input and its score is at least `threshold` (equality is kept). |
| Selector.PassingDescending | services/threat-model/main.py:139-142 | Filtering a descending run leaves it descending. |
| Selector.PassingDistinct | services/threat-model/main.py:139-142 | Filtering a duplicate-free run leaves it duplicate-free. |
| Selector.ConsDescending | services/threat-model/main.py:138-142 | An index scoring at least every index of a descending run can lead that run. |
| Selector.DescendingHead | services/threat-model/main.py:138 | The head of a descending run scores at least as high as everything after it, and the rest is descending. |
| Selector.KeptIndices | services/threat-model/main.py:139-142 | At most `top_k` indices are kept, each scoring at least `threshold`. Among the first `top_k` of the ranking, an index is kept exactly when its score reaches `threshold`. Nothing outside that window is kept. |
| Selector.KeptIndicesRanked | services/threat-model/main.py:138-142 | Under a descending ranking the kept indices have non-increasing scores and no repeats. |
| Selector.AllBelowEmitsNothing | services/threat-model/main.py:139-142 | When every candidate is below `threshold`, neither the filter nor the emit-until rule emits anything. |
| Selector.SliceThenFilterIsEmitUntil | services/threat-model/main.py:139-142 | On a descending ranking, slicing to `top_k` and then filtering emits the same indices as walking the whole ranking and emitting passing indices until `top_k` are emitted. |
| Selector.Label | services/threat-model/main.py:143 | Naming succeeds exactly when every kept index is within `classes_`. Entry `j` then names `classes_[kept[j]]` with that index's score. Otherwise the index error is raised. |
| Selector.Row0Order | services/threat-model/main.py:137-138 | Row 0 is ranked by an admissible permutation, and NumPy's answer for row 0 is used as given whenever it is admissible. |
| Selector.ProbabilityPath | services/threat-model/main.py:136-143 | For every admissible ranking of row 0: without a matrix, or with one of size 0, the path emits nothing. Otherwise it emits at most `top_k` entries, all scored at least `threshold`, in non-increasing score order. Its only error is the index error. |
| Selector.PathLabelsKept | services/threat-model/main.py:136-143 | Helper (unfolds the path): on a matrix with cells and an admissible ranking of row 0, the path labels exactly the indices kept from that ranking. |
| Selector.ProbabilityPathNamesClasses | services/threat-model/main.py:137-143 | For every admissible ranking, no class index is emitted twice. Each entry is `classes_[idx]` with `idx` in range for both row 0 and `classes_`, and carries row 0's score for `idx`. |
| Selector.TieKeepsFirstRanked | services/threat-model/main.py:138-143 | With two equal scores and `top_k` 1, the class the ranking puts first is the one emitted. |
| Selector.TieOrderDecidesLabel | services/threat-model/main.py:138-143 | Scores 0.5 and 0.5 with `top_k` 1 emit class A under ranking [0, 1] and class B under [1, 0], and both rankings are admissible. The tie order therefore decides the label, and the model leaves it open. |
| Selector.Fallback | services/threat-model/main.py:149-152 | The fallback gives the first `min(top_k, len(labels))` labels of `decoded[0]`, or none when nothing was decoded. They come in decoding order and carry no score. |
| Selector.FirstRow | services/threat-model/main.py:150 | `decoded[0] if decoded else []`: the first decoded label row, or none. |
| Selector.SelectLabels | services/threat-model/main.py:123-154 | The result has at most `top_k` entries. Either all are scored and at least `threshold`, or none is scored. An index error on the probability path is returned unchanged. The fallback is used exactly when the path emits nothing, and then no threshold applies. A decoding error surfaces only in that case. A non-empty probability result is returned unchanged. |
| Selector.SqlInjectionExample | services/threat-model/main.py:136-143 | Under every admissible ranking, scores {CWE-564: 0.30, CWE-79: 0.10, CWE-89: 0.81} with `top_k` 3 and threshold 0.25 give CWE-89 (0.81) then CWE-564 (0.30). |
| Selector.HardLabelExample | services/threat-model/main.py:145-152 | Without probabilities, the hard labels CWE-79 and CWE-89 with `top_k` 1 give only CWE-79, without a score, whatever the threshold. |
| Selector.ExampleRanking | services/threat-model/main.py:138 | The worked example's scores, having no ties, admit exactly one ranking: indices 2, 0, 1. |
| Selector.ExampleKept | services/threat-model/main.py:139-142 | The worked example keeps indices 2 and 0. |
| Selector.ExampleLabels | services/threat-model/main.py:143 | The worked example's kept indices name CWE-89 and CWE-564. |
| Service.CheckWidths | services/threat-model/main.py:196-225 | The checks pass exactly when the features have no shape, or neither classifier declares a width different from the feature count. A CWE mismatch is reported as CWE with the feature count and CWE's width. When CWE agrees and CAPEC does not, CAPEC is reported with the feature count and CAPEC's width. A reported taxonomy always disagrees with the feature count. |
| Service.Decimal | services/threat-model/main.py:207-211 | A width in the mismatch message is rendered as decimal digits without a leading zero. |
| Service.DecimalValue | services/threat-model/main.py:207-211 | Reading the rendered digits back gives the width, so the message states the compared widths. |
| Service.ApiError.Detail | services/threat-model/main.py:188-241 | The `detail` text of each error: the blank-description message, "Unauthorized", the mismatch message naming the taxonomy and both widths, and "Prediction failed: " followed by the cause. |
| Service.MismatchDetailStatesWidth | services/threat-model/main.py:210 | The mismatch message opens with "Model-vectorizer mismatch: got ". The digits after that read back as the feature count compared. " features, " and the taxonomy's name ("CWE" or "CAPEC") follow, then " model expects ". The digits after that read back as the width the model declares. The message closes with ". Please ensure vectorizer and models are from the same training run." |
| Service.FeatureCount | services/threat-model/main.py:197 | The feature width is `shape[1]`, or 0 when there are no rows. |
| Service.Mismatched | services/threat-model/main.py:200-202 | A classifier disagrees exactly when it declares `n_features_in_` and that differs from the feature width. |
| Service.Probabilities | services/threat-model/main.py:131-134 | Without `predict_proba` there is no matrix. Otherwise an error raised by `predict_proba` is returned, and its output is normalised as `_ensure_probability_array` does. |
| Service.PredictTaxonomy | services/threat-model/main.py:123-154 | The labels are capped at `top_k` and are either all scored at least `threshold` or all unscored. A normalisation or `predict_proba` error is returned. Otherwise the labels are the selection over the normalised matrix, with row 0 ranked as `argsort` answers, the classifier's `classes_` and its decoded hard labels. Without `predict_proba`, they are the fallback over the decoded hard labels, or their decoding error. |
| Service.ApiError.Status | services/threat-model/main.py:164-241 | The status code of each error: 400 for a blank description, 401 from the token gate, 500 for a width mismatch and for a wrapped failure. |
| Service.RunPrediction | services/threat-model/main.py:187-243 | A 400 "Description must not be empty" arises exactly when the description is all whitespace. Every other error, a width mismatch or a wrapped failure, is a 500. A mismatch error is exactly what the width checks report on the extracted features, and whenever the width checks fail on them, that report is the result. A success means extraction worked and the width checks passed, and both taxonomies' lists are capped and thresholded. |
| Service.BlankDescriptionTouchesNothing | services/threat-model/main.py:188-190 | A blank description gives the same 400 under any artifacts, so no vectorizer or classifier is consulted. |
| Service.MismatchRunsNoPrediction | services/threat-model/main.py:196-225 | On a width mismatch, replacing both classifiers' prediction functions while keeping their declared widths leaves the result unchanged, so no prediction runs. |
| Service.CweCheckedFirst | services/threat-model/main.py:200-211 | When the CWE classifier disagrees with the feature count, the error names CWE with both widths, whatever CAPEC declares. |
| Service.RunPredictionOutcomes | services/threat-model/main.py:192-243 | Helper (unfolds the handler): after the blank check, a vectorizer failure becomes "Prediction failed" with its message. Once the widths pass, a CWE failure, then a CAPEC failure, is wrapped the same way. Otherwise the response holds both lists. |
| Service.Collect | services/threat-model/main.py:261 | A comprehension over calls that may raise succeeds exactly when every call does, giving all values in order. Otherwise it raises the error of the first failing call, and every call before it succeeded. |
| Service.Responses | services/threat-model/main.py:261 | Entry `i` is the single-request result of item `i`. |
| Service.PredictBatch | services/threat-model/main.py:259-267 | A batch succeeds exactly when every item does. It then has one result per item, in order, equal to that item's single prediction. Otherwise it fails with the first failing item's error, and no partial results are returned. |
| Service.BatchOfOne | services/threat-model/main.py:259-267 | A one-item batch answers exactly as a single prediction does. |
| Service.BlankItemFailsBatch | services/threat-model/main.py:259-267 | When every item before the first blank-description item succeeds, the whole batch fails with that item's 400 and returns no partial results. |
| Service.RequireToken | services/threat-model/main.py:160-164 | A refusal is always the 401 "Unauthorized". |
| Service.TokenGateExact | services/threat-model/main.py:160-164 | The gate passes exactly when no token is configured, the configured token is empty, or the header is present and equal to it. |
| Service.Predict | services/threat-model/main.py:246-251 | The `/predict` endpoint refuses a caller the gate rejects with 401. Otherwise it answers as `_run_prediction`. |
| Service.PredictBatchEndpoint | services/threat-model/main.py:254-267 | The `/predict/batch` endpoint refuses a caller the gate rejects with 401. Otherwise it answers as the batch handler. |
| Service.GateBeforeValidation | services/threat-model/main.py:160-164 | With a token configured and a wrong or missing header, even a blank description answers 401, not 400. |
| Text.TrimStart | services/threat-model/main.py:188 | `lstrip` never lengthens its input. |
| Text.TrimEnd | services/threat-model/main.py:188 | `rstrip` never lengthens its input. |
| Text.IsSpace | services/threat-model/main.py:188 | Python's `str.isspace` for one character: the whitespace code points of the Unicode database. |
| Text.Strip | services/threat-model/main.py:188 | `strip()` never lengthens its input. What it removes and keeps is stated by StripTrimmed and StripRemovesOnlyOuterSpace. |
| Text.TrimStartFacts | services/threat-model/main.py:188 | `lstrip` removes a whitespace prefix and stops at the first other character. |
| Text.TrimEndFacts | services/threat-model/main.py:188 | `rstrip` removes a whitespace suffix and stops at the last other character. |
| Text.StripTrimmed | services/threat-model/main.py:188-189 | `strip` leaves no whitespace at either end, and leaves nothing exactly when the input is all whitespace. It leaves an already-trimmed string unchanged. |
| Text.StripRemovesOnlyOuterSpace | services/threat-model/training/train.py:19 | `strip` keeps the contiguous run between the leading and trailing whitespace, and removes only whitespace. |
| Text.ReplaceChar | services/threat-model/training/train.py:19 | Replacement keeps the length. Each `from` becomes `to` and every other character stays. |
| Text.Split | services/threat-model/training/train.py:19 | Splitting always gives at least one piece, so "" gives [""]. |
| Text.SplitPieces | services/threat-model/training/train.py:19 | No piece contains the separator, and every character of a piece comes from the input. |
| Text.SplitWithoutSeparator | services/threat-model/training/train.py:19 | A string without the separator is a single piece. |
| Text.SplitAround | services/threat-model/training/train.py:19 | A separator between `a` and `b` splits there: the pieces are those of `a` followed by those of `b`. |
| Text.SplitJoin | services/threat-model/training/train.py:19 | Joining separator-free pieces and splitting again gives the pieces back. |
| Text.SplitAllSpace | services/threat-model/training/train.py:19 | Every piece is all whitespace exactly when every character is the separator or whitespace. |
| Training.StripEach | services/threat-model/training/train.py:19 | Token `i` is piece `i` stripped. |
| Training.ParseLabels | services/threat-model/training/train.py:16-20 | `_parse_labels` itself. Its properties are stated by ParseLabelsWellFormed, ParseLabelsEmpty, EmptyGuardRedundant, ParseLabelsConcat, SeparatorsInterchangeable and ParseLabelsIdempotent. |
| Training.DropEmpty | services/threat-model/training/train.py:20 | Dropping never adds tokens. |
| Training.DropEmptyContents | services/threat-model/training/train.py:20 | Every kept token is non-empty and came from the input. Nothing is kept exactly when every token was empty. |
| Training.DropEmptyAppend | services/threat-model/training/train.py:20 | Dropping empty tokens distributes over concatenation, so order is kept. |
| Training.DropEmptyKeepsNonEmpty | services/threat-model/training/train.py:20 | Tokens that are all non-empty are kept as they are. |
| Training.ParseLabelsWellFormed | services/threat-model/training/train.py:16-20 | Every returned label is non-empty, contains neither `,` nor `;`, and equals its own `strip()`. |
| Training.StripEachAllEmpty | services/threat-model/training/train.py:19-20 | Stripping leaves only empty tokens exactly when every piece was whitespace. |
| Training.ReplacedIgnorable | services/threat-model/training/train.py:19 | After `;` becomes `,`, a character is a comma or whitespace exactly when the original was a separator or whitespace. |
| Training.ParseLabelsEmpty | services/threat-model/training/train.py:16-20 | The parse is empty exactly when the cell holds only separators and whitespace, "" included. |
| Training.EmptyGuardRedundant | services/threat-model/training/train.py:17-18 | The `if not raw` guard agrees with the general path on "". |
| Training.ReplaceAround | services/threat-model/training/train.py:19 | Replacement distributes over concatenation around a character it leaves alone. |
| Training.StripEachAppend | services/threat-model/training/train.py:19 | Stripping each token distributes over concatenation. |
| Training.ParseLabelsConcat | services/threat-model/training/train.py:16-20 | Parsing two cells joined by a comma gives the labels of the first followed by those of the second, so labels keep their input order. |
| Training.SeparatorsInterchangeable | services/threat-model/training/train.py:19 | Replacing every `;` by `,` first does not change the labels. |
| Training.ReplaceAbsent | services/threat-model/training/train.py:19 | Replacing a character that does not occur changes nothing. |
| Training.JoinAvoids | services/threat-model/training/train.py:19 | A character that is neither the separator nor in any part is not in the join. |
| Training.StripEachTrimmed | services/threat-model/training/train.py:19 | Stripping already-stripped tokens changes nothing. |
| Training.ParseLabelsIdempotent | services/threat-model/training/train.py:16-20 | Joining the labels with "," and parsing again gives the same labels. |
| Training.LabelCell | services/threat-model/training/train.py:32-33 | A non-empty primary cell is used. Otherwise the secondary cell is used, and a missing cell counts as empty. |
| Training.Cell | services/threat-model/training/train.py:31 | A missing column reads as the empty string. |
| Training.MapRows | services/threat-model/training/train.py:30-33 | The single pass over the rows gives three lists as long as the rows, where entry `i` of each is computed from row `i`. |
| Training.LoadDataset | services/threat-model/training/train.py:23-38 | Zero rows raise the "Dataset is empty" error, and only zero rows do. Otherwise each list has one entry per row, in row order. Each entry holds the stripped description and the labels parsed from `cwe`, else `cwes`, and from `capec`, else `capecs`. |
| Training.LoadedDatasetClean | services/threat-model/training/train.py:30-33 | Every loaded description has no surrounding whitespace, and every loaded label is well formed. |

## Behaviour of the code the model keeps

- **Tie order.** `np.argsort` with its default algorithm is not stable, and
  main.py:138 reverses its result. The order among equal scores is therefore
  not fixed. The artifacts carry NumPy's answer as an arbitrary function, and
  every property of the selector and the handler holds for every permutation
  by non-increasing score that it may return (`Arrange`, `RanksRow0`).
- **Blocks kept whole.** Every 2-D per-class block whose width is not 2 is kept
  with all of its columns, widths 0 and 1 included (main.py:111-115).
- **Width checks.** The width checks run only when the features have a `shape`
  and the classifier has `n_features_in_` (main.py:196-225; `CheckWidths`).
- **Wrapped errors.** A wrapped failure carries only "Prediction failed: " and
  the exception text, not the taxonomy or stage that failed
  (main.py:239-241; `PredictionFailed`).

## Left out

- Extraction and prediction internals. Vectorizer `transform`, `predict_proba`,
  `predict`, `toarray` and `inverse_transform` are scikit-learn and SciPy calls.
  They are abstract functions in `Artifacts`, each either returning a value or
  raising with a message.
- Loading and configuration. Artifact loading, the memmap/pickle fallback, the
  environment configuration and the models-directory check (main.py:56-100) are
  file I/O. The configured token is a parameter of the gate.
- HTTP plumbing. FastAPI routing, CORS, `/health`, timing and logging, and the
  uvicorn entry point are transport and plumbing. The two endpoints are modelled
  only as "gate, then handler".
- Request-schema validation. The pydantic range checks (`top_k` 1..20,
  `threshold` 0..1, a batch of 1..50 items) and their 422 response are
  preconditions (`ValidRequest`, and the batch length on `PredictBatch`).
- Numeric precision. The float32 downcast (main.py:228-229) is the identity and
  scores are exact reals, so NaN scores and float rounding are not modelled.
- EnsureProbabilityArray: a non-list `predict_proba` result is modelled only as
  a 2-D array. Other shapes (a 1-D array, scalars, ragged lists) are not modelled,
  because the classifiers the service loads return 2-D arrays or lists of them.
- Error message text. The message text of NumPy and scikit-learn errors is not
  reproduced exactly: HStack's empty-list message is NumPy's, its row-mismatch
  message is a shortened prefix of NumPy's, and the `classes_` index error uses
  a fixed text.
- EnsureProbabilityArray: per-class list entries that are 0-D, or 3-D and
  higher, are not modelled. Main.py:117 raises on a 0-D entry, and the
  classifiers the service loads produce only 1-D and 2-D entries.
- Short CSV rows. In `load_dataset`, `csv.DictReader` gives `None` for a short
  row's missing fields, and `.strip()` on `None` raises. The model takes rows as
  string maps, and a missing key reads as "".
- Training. `build_model`, `main`, argument parsing and CSV file reading in
  train.py are sklearn training and file I/O.

=== FILE: normaliser.dfy ===
/** The score normaliser (`_ensure_probability_array`): a classifier's raw
    `predict_proba` output becomes one matrix of per-class scores, one row per
    input and one column per class. */
module Normaliser {
  import opened Wrappers

  /** A two-dimensional array stored row by row. The width is kept apart from the
      rows so that an array with no rows still has a column count, as a NumPy
      shape does. */
  datatype Array2 = Array2(width: nat, rows: seq<seq<real>>)
  {
    predicate Rectangular() {
      forall i :: 0 <= i < |rows| ==> |rows[i]| == width
    }

    /** NumPy's `size`: the number of cells. */
    function Size(): nat {
      |rows| * width
    }
  }

  /** A NumPy 2-D array: every row has the same width. */
  type Matrix = a: Array2 | a.Rectangular() witness Array2(0, [])

  /** Column `c` of `m`, top to bottom (`m[:, c]`). */
  function Column(m: Matrix, c: nat): (col: seq<real>)
    requires c < m.width
    ensures |col| == |m.rows|
    ensures forall i :: 0 <= i < |m.rows| ==> col[i] == m.rows[i][c]
  {
    seq(|m.rows|, i requires 0 <= i < |m.rows| => m.rows[i][c])
  }

  /** One entry of a per-class list: a 1-D array or a 2-D array. */
  datatype Block = Vector(values: seq<real>) | Grid(grid: Matrix)

  /** What `predict_proba` returned: `None`, a list of per-class blocks (as a
      one-vs-rest classifier over several outputs produces), or one array. */
  datatype RawProba = Null | PerClass(entries: seq<Block>) | Dense(dense: Matrix)

  /** The number of rows a block stacks against. */
  function BlockHeight(b: Block): nat {
    match b
    case Vector(v) => |v|
    case Grid(g) => |g.rows|
  }

  /** How many columns a block adds to the stacked result: a two-column block adds
      only its positive-class column, any other 2-D block all of its columns, and
      a 1-D block one column. */
  function ContributedWidth(b: Block): nat {
    match b
    case Vector(_) => 1
    case Grid(g) => if g.width == 2 then 1 else g.width
  }

  /** `v[:, None]`: a vector as a single column. */
  function AsColumn(v: seq<real>): (m: Matrix)
    ensures m.width == 1 && |m.rows| == |v|
    ensures Column(m, 0) == v
  {
    Array2(1, seq(|v|, i requires 0 <= i < |v| => [v[i]]))
  }

  /** The array one list entry contributes to the stack. */
  function Contribution(b: Block): (m: Matrix)
    ensures |m.rows| == BlockHeight(b)
    ensures m.width == ContributedWidth(b)
    ensures b.Grid? && b.grid.width != 2 ==> m == b.grid
  {
    match b
    case Vector(v) => AsColumn(v)
    case Grid(g) => if g.width == 2 then AsColumn(Column(g, 1)) else g
  }

  /** Total width of a list of arrays. */
  function WidthSum(ms: seq<Matrix>): nat {
    if |ms| == 0 then 0 else ms[0].width + WidthSum(ms[1..])
  }

  /** Total number of columns a list of blocks contributes. */
  function ContributedSum(bs: seq<Block>): nat {
    if |bs| == 0 then 0 else ContributedWidth(bs[0]) + ContributedSum(bs[1..])
  }

  /** `a` and `b` side by side; both have the same number of rows. */
  function Beside(a: Matrix, b: Matrix): (m: Matrix)
    requires |a.rows| == |b.rows|
    ensures m.width == a.width + b.width && |m.rows| == |a.rows|
    ensures forall c :: 0 <= c < a.width ==> Column(m, c) == Column(a, c)
    ensures forall c :: 0 <= c < b.width ==> Column(m, a.width + c) == Column(b, c)
  {
    Array2(a.width + b.width, seq(|a.rows|, i requires 0 <= i < |a.rows| => a.rows[i] + b.rows[i]))
  }

  /** The arrays can be stacked side by side: there is at least one and all have
      the same number of rows. */
  predicate Stackable(ms: seq<Matrix>) {
    |ms| > 0 && forall j :: 0 <= j < |ms| ==> |ms[j].rows| == |ms[0].rows|
  }

  /** The arrays side by side, in list order. */
  function Concat(ms: seq<Matrix>): (m: Matrix)
    requires Stackable(ms)
    ensures |m.rows| == |ms[0].rows|
    ensures m.width == WidthSum(ms)
  {
    if |ms| == 1 then ms[0]
    else
      assert |ms[1].rows| == |ms[0].rows|;
      Beside(ms[0], Concat(ms[1..]))
  }

  const NeedOneArray: string := "need at least one array to concatenate"
  const DimensionMismatch: string :=
    "all the input array dimensions except for the concatenation axis must match exactly"

  /** `np.hstack` over 2-D arrays, which raises on an empty list and on arrays whose
      row counts differ. */
  function HStack(ms: seq<Matrix>): (r: Result<Matrix, string>)
    ensures r.Success? <==> Stackable(ms)
    ensures r.Success? ==> r.value.width == WidthSum(ms) && |r.value.rows| == |ms[0].rows|
    ensures r.Failure? ==> r.error == (if |ms| == 0 then NeedOneArray else DimensionMismatch)
  {
    if |ms| == 0 then Failure(NeedOneArray)
    else if !Stackable(ms) then Failure(DimensionMismatch)
    else Success(Concat(ms))
  }

  /** The contribution of every block, in list order. */
  function Contributions(bs: seq<Block>): (ms: seq<Matrix>)
    ensures |ms| == |bs|
    ensures forall j :: 0 <= j < |bs| ==> ms[j] == Contribution(bs[j])
  {
    seq(|bs|, j requires 0 <= j < |bs| => Contribution(bs[j]))
  }

  /** The blocks all have the same number of rows (and there is at least one). */
  predicate SameHeight(bs: seq<Block>) {
    |bs| > 0 && forall j :: 0 <= j < |bs| ==> BlockHeight(bs[j]) == BlockHeight(bs[0])
  }

  /** `_ensure_probability_array`. */
  function EnsureProbabilityArray(raw: RawProba): (r: Result<Option<Matrix>, string>)
    ensures r == Success(None) <==> raw.Null?
    ensures raw.Dense? ==> r == Success(Some(raw.dense))
    ensures raw.PerClass? ==> (r.Success? <==> SameHeight(raw.entries))
    ensures raw.PerClass? && r.Success? ==>
      && r.value.Some?
      && |r.value.value.rows| == BlockHeight(raw.entries[0])
  {
    match raw
    case Null => Success(None)
    case Dense(m) => Success(Some(m))
    case PerClass(bs) =>
      var ms := Contributions(bs);
      assert Stackable(ms) <==> SameHeight(bs);
      match HStack(ms)
      case Failure(e) => Failure(e)
      case Success(m) => Success(Some(m))
  }

  /** The width of the stack counts each block's contributed columns. */
  lemma {:induction false} ContributionsWidth(bs: seq<Block>)
    ensures WidthSum(Contributions(bs)) == ContributedSum(bs)
  {
    if |bs| > 0 {
      assert Contributions(bs)[1..] == Contributions(bs[1..]);
      ContributionsWidth(bs[1..]);
    }
  }

  /** In a side-by-side stack, array `j` occupies the columns starting after the
      widths of the arrays before it. */
  lemma {:induction false} ConcatColumn(ms: seq<Matrix>, j: nat, c: nat)
    requires Stackable(ms) && j < |ms| && c < ms[j].width
    ensures WidthSum(ms[..j]) + c < Concat(ms).width
    ensures Column(Concat(ms), WidthSum(ms[..j]) + c) == Column(ms[j], c)
  {
    if |ms| == 1 {
      assert ms[..j] == [];
    } else {
      assert |ms[1].rows| == |ms[0].rows|;
      var rest := ms[1..];
      assert Stackable(rest);
      if j == 0 {
        assert ms[..j] == [];
      } else {
        assert ms[..j][1..] == rest[..j - 1];
        assert WidthSum(ms[..j]) == ms[0].width + WidthSum(rest[..j - 1]);
        ConcatColumn(rest, j - 1, c);
        assert Concat(ms) == Beside(ms[0], Concat(rest));
      }
    }
  }

  /** The columns of the normalised matrix are the blocks' contributions, side by
      side in list order: block `j`'s columns start at the sum of the widths the
      blocks before it contribute, and the total width is the sum over all blocks. */
  lemma {:induction false} NormalisedColumns(bs: seq<Block>, j: nat, c: nat)
    requires EnsureProbabilityArray(PerClass(bs)).Success?
    requires j < |bs| && c < ContributedWidth(bs[j])
    ensures var m := EnsureProbabilityArray(PerClass(bs)).value.value;
      && m.width == ContributedSum(bs)
      && ContributedSum(bs[..j]) + c < m.width
      && Column(m, ContributedSum(bs[..j]) + c) == Column(Contribution(bs[j]), c)
  {
    var ms := Contributions(bs);
    assert Stackable(ms);
    assert EnsureProbabilityArray(PerClass(bs)).value.value == Concat(ms);
    ContributionsWidth(bs);
    var prefix := bs[..j];
    assert ms[..j] == Contributions(prefix) by {
      assert forall i :: 0 <= i < j ==> ms[..j][i] == Contribution(prefix[i]);
    }
    ContributionsWidth(prefix);
    ConcatColumn(ms, j, c);
  }

  /** A two-column (negative, positive) block contributes exactly its positive
      column, at its offset in the normalised matrix; a 1-D block contributes its
      values as one column. */
  lemma {:induction false} PositiveColumnKept(bs: seq<Block>, j: nat)
    requires EnsureProbabilityArray(PerClass(bs)).Success?
    requires j < |bs|
    requires bs[j].Vector? || bs[j].grid.width == 2
    ensures var m := EnsureProbabilityArray(PerClass(bs)).value.value;
      && ContributedSum(bs[..j]) < m.width
      && Column(m, ContributedSum(bs[..j])) ==
           (if bs[j].Vector? then bs[j].values else Column(bs[j].grid, 1))
  {
    NormalisedColumns(bs, j, 0);
  }

  /** A 2-D block of any width other than two is kept whole: each of its columns
      appears, in order, at that block's offset in the normalised matrix. */
  lemma {:induction false} WideBlockKept(bs: seq<Block>, j: nat, c: nat)
    requires EnsureProbabilityArray(PerClass(bs)).Success?
    requires j < |bs| && bs[j].Grid? && bs[j].grid.width != 2
    requires c < bs[j].grid.width
    ensures var m := EnsureProbabilityArray(PerClass(bs)).value.value;
      && ContributedSum(bs[..j]) + c < m.width
      && Column(m, ContributedSum(bs[..j]) + c) == Column(bs[j].grid, c)
  {
    NormalisedColumns(bs, j, c);
  }
}

=== FILE: ranking.dfy ===
/** Ranking class indices by descending score, as `np.argsort(scores)[::-1]` does.
    NumPy's default sort is not stable, so the order among equal scores is not
    fixed; everything downstream is stated for any ranking that `RanksDescending`
    admits, and `RankDescending` is one such ranking. */
module Ranking {

  /** Every index in `idxs` addresses a score. */
  predicate InRange(scores: seq<real>, idxs: seq<nat>) {
    forall p :: 0 <= p < |idxs| ==> idxs[p] < |scores|
  }

  /** The scores of `idxs`, read left to right, never increase. */
  predicate Descending(scores: seq<real>, idxs: seq<nat>) {
    && InRange(scores, idxs)
    && forall p, q :: 0 <= p < q < |idxs| ==> scores[idxs[p]] >= scores[idxs[q]]
  }

  /** No index occurs twice. */
  predicate Distinct(idxs: seq<nat>) {
    forall p, q :: 0 <= p < q < |idxs| ==> idxs[p] != idxs[q]
  }

  /** `order` is a permutation of the indices of `scores`, by non-increasing score. */
  predicate RanksDescending(scores: seq<real>, order: seq<nat>) {
    && |order| == |scores|
    && Descending(scores, order)
    && Distinct(order)
    && forall i :: 0 <= i < |scores| ==> i in order
  }

  /** Inserts index `x` into a descending ranking, after every index whose score is
      at least as high. */
  function InsertRanked(scores: seq<real>, x: nat, ranked: seq<nat>): (r: seq<nat>)
    ensures |r| == |ranked| + 1
    ensures forall v :: v in r <==> v == x || v in ranked
  {
    if |ranked| == 0 then [x]
    else if x < |scores| && ranked[0] < |scores| && scores[x] > scores[ranked[0]] then [x] + ranked
    else
      var rest := InsertRanked(scores, x, ranked[1..]);
      assert forall v :: v in ranked <==> v == ranked[0] || v in ranked[1..];
      [ranked[0]] + rest
  }

  lemma {:induction false} InsertRankedInRange(scores: seq<real>, x: nat, ranked: seq<nat>)
    requires x < |scores| && InRange(scores, ranked)
    ensures InRange(scores, InsertRanked(scores, x, ranked))
  {
    var r := InsertRanked(scores, x, ranked);
    forall p | 0 <= p < |r| ensures r[p] < |scores| {
      assert r[p] in r;
      if r[p] != x {
        var q :| 0 <= q < |ranked| && ranked[q] == r[p];
      }
    }
  }

  /** Inserting keeps a descending ranking descending. */
  lemma {:induction false} InsertRankedDescending(scores: seq<real>, x: nat, ranked: seq<nat>)
    requires x < |scores| && Descending(scores, ranked)
    ensures Descending(scores, InsertRanked(scores, x, ranked))
  {
    InsertRankedInRange(scores, x, ranked);
    var r := InsertRanked(scores, x, ranked);
    if |ranked| > 0 {
      if scores[x] > scores[ranked[0]] {
        assert r == [x] + ranked;
        assert forall p :: 1 <= p < |r| ==> r[p] == ranked[p - 1];
      } else {
        var tail := ranked[1..];
        assert Descending(scores, tail) by {
          assert forall p :: 0 <= p < |tail| ==> tail[p] == ranked[p + 1];
        }
        InsertRankedDescending(scores, x, tail);
        var rest := InsertRanked(scores, x, tail);
        assert r == [ranked[0]] + rest;
        forall q | 0 <= q < |rest| ensures scores[ranked[0]] >= scores[rest[q]] {
          assert rest[q] in rest;
          if rest[q] != x {
            var p :| 0 <= p < |tail| && tail[p] == rest[q];
            assert ranked[p + 1] == rest[q];
          }
        }
        assert forall p :: 1 <= p < |r| ==> r[p] == rest[p - 1];
      }
    }
  }

  /** Inserting a fresh index keeps the ranking free of duplicates. */
  lemma {:induction false} InsertRankedDistinct(scores: seq<real>, x: nat, ranked: seq<nat>)
    requires Distinct(ranked) && x !in ranked
    ensures Distinct(InsertRanked(scores, x, ranked))
  {
    var r := InsertRanked(scores, x, ranked);
    if |ranked| > 0 {
      if r == [x] + ranked {
        assert forall p :: 1 <= p < |r| ==> r[p] == ranked[p - 1];
      } else {
        var tail := ranked[1..];
        assert Distinct(tail) by {
          assert forall p :: 0 <= p < |tail| ==> tail[p] == ranked[p + 1];
        }
        assert x !in tail;
        InsertRankedDistinct(scores, x, tail);
        var rest := InsertRanked(scores, x, tail);
        assert r == [ranked[0]] + rest;
        assert ranked[0] !in tail by {
          forall p | 0 <= p < |tail| ensures tail[p] != ranked[0] {
            assert tail[p] == ranked[p + 1];
          }
        }
        assert forall p :: 1 <= p < |r| ==> r[p] == rest[p - 1] && r[p] in rest;
      }
    }
  }

  /** A descending ranking of the indices below `n`. */
  function RankPrefix(scores: seq<real>, n: nat): (r: seq<nat>)
    requires n <= |scores|
    ensures |r| == n
    ensures forall v :: v in r <==> 0 <= v < n
    ensures Descending(scores, r) && Distinct(r)
  {
    if n == 0 then []
    else
      var ranked := RankPrefix(scores, n - 1);
      InsertRankedDescending(scores, n - 1, ranked);
      InsertRankedDistinct(scores, n - 1, ranked);
      InsertRanked(scores, n - 1, ranked)
  }

  /** An admissible ranking (ties keep the lower index first), used only where
      NumPy's answer is not admissible. */
  function RankDescending(scores: seq<real>): (order: seq<nat>)
    ensures RanksDescending(scores, order)
  {
    RankPrefix(scores, |scores|)
  }

  /** The ranking used for `np.argsort(scores)[::-1]` when NumPy answered
      `answer`. NumPy's answer is always a permutation by non-increasing score,
      and then it is used as is; which permutation NumPy picks among equal
      scores is not fixed, so `answer` is left arbitrary. For any other
      `answer` (none that NumPy gives) `RankDescending` stands in. */
  function Arrange(scores: seq<real>, answer: seq<nat>): (order: seq<nat>)
    ensures RanksDescending(scores, order)
    ensures RanksDescending(scores, answer) ==> order == answer
  {
    if RanksDescending(scores, answer) then answer else RankDescending(scores)
  }

  /** Equal scores can be ranked either way: both orders of `[0.5, 0.5]` are
      admissible rankings. */
  lemma TiesEitherWay()
    ensures RanksDescending([0.5, 0.5], [0, 1])
    ensures RanksDescending([0.5, 0.5], [1, 0])
  {
    assert forall i :: 0 <= i < 2 ==> i in [0, 1] && i in [1, 0];
  }
}

=== FILE: selector.dfy ===
/** The label selector (`_predict_labels`): from a normalised probability matrix,
    the classifier's `classes_`, and its decoded hard labels, the ranked,
    thresholded, size-capped list of labels for one taxonomy. */
module Selector {
  import opened Wrappers
  import opened Ranking
  import opened Normaliser

  /** One predicted label: a taxonomy identifier such as "CWE-79" and, when it came
      from a probability, its score. */
  datatype LabelScore = LabelScore(id: string, score: Option<real>)

  function Min(a: nat, b: nat): nat {
    if a <= b then a else b
  }

  /** The indices of `idxs` whose score is not below `threshold`, in their order:
      the loop's `if score < threshold: continue`. */
  function Passing(scores: seq<real>, idxs: seq<nat>, threshold: real): (kept: seq<nat>)
    requires InRange(scores, idxs)
    ensures |kept| <= |idxs|
    ensures InRange(scores, kept)
    ensures forall x :: x in kept <==> x in idxs && x < |scores| && scores[x] >= threshold
  {
    if |idxs| == 0 then []
    else
      var rest := Passing(scores, idxs[1..], threshold);
      assert forall x :: x in idxs <==> x == idxs[0] || x in idxs[1..];
      if scores[idxs[0]] < threshold then rest
      else
        var kept := [idxs[0]] + rest;
        assert forall p :: 1 <= p < |kept| ==> kept[p] == rest[p - 1];
        kept
  }

  /** Putting an index in front of a descending run keeps it descending when its
      score is at least every score in the run. */
  lemma {:induction false} ConsDescending(scores: seq<real>, h: nat, rest: seq<nat>)
    requires h < |scores| && Descending(scores, rest)
    requires forall v :: v in rest ==> scores[v] <= scores[h]
    ensures Descending(scores, [h] + rest)
  {
    var s := [h] + rest;
    assert forall p :: 1 <= p < |s| ==> s[p] == rest[p - 1] && s[p] in rest;
  }

  /** The head of a descending run scores at least as high as anything after it. */
  lemma {:induction false} DescendingHead(scores: seq<real>, idxs: seq<nat>)
    requires Descending(scores, idxs) && |idxs| > 0
    ensures Descending(scores, idxs[1..])
    ensures forall v :: v in idxs[1..] ==> scores[v] <= scores[idxs[0]]
  {
    var tail := idxs[1..];
    assert forall p :: 0 <= p < |tail| ==> tail[p] == idxs[p + 1];
  }

  /** Filtering keeps a descending run descending. */
  lemma {:induction false} PassingDescending(scores: seq<real>, idxs: seq<nat>, threshold: real)
    requires Descending(scores, idxs)
    ensures Descending(scores, Passing(scores, idxs, threshold))
  {
    if |idxs| > 0 {
      DescendingHead(scores, idxs);
      PassingDescending(scores, idxs[1..], threshold);
      if scores[idxs[0]] >= threshold {
        ConsDescending(scores, idxs[0], Passing(scores, idxs[1..], threshold));
      }
    }
  }

  /** Filtering a duplicate-free run leaves it duplicate-free. */
  lemma {:induction false} PassingDistinct(scores: seq<real>, idxs: seq<nat>, threshold: real)
    requires InRange(scores, idxs) && Distinct(idxs)
    ensures Distinct(Passing(scores, idxs, threshold))
  {
    if |idxs| > 0 {
      var tail := idxs[1..];
      assert Distinct(tail) by {
        assert forall p :: 0 <= p < |tail| ==> tail[p] == idxs[p + 1];
      }
      PassingDistinct(scores, tail, threshold);
      var rest := Passing(scores, tail, threshold);
      if scores[idxs[0]] >= threshold {
        assert idxs[0] !in tail by {
          forall p | 0 <= p < |tail| ensures tail[p] != idxs[0] {
            assert tail[p] == idxs[p + 1];
          }
        }
        var kept := [idxs[0]] + rest;
        assert forall p :: 1 <= p < |kept| ==> kept[p] == rest[p - 1] && kept[p] in rest;
      }
    }
  }

  /** The class indices the probability path emits, as the code computes them:
      the first `top_k` of the ranking, then those not below `threshold`. */
  function KeptIndices(scores: seq<real>, order: seq<nat>, topK: nat, threshold: real): (kept: seq<nat>)
    requires InRange(scores, order)
    ensures |kept| <= topK
    ensures InRange(scores, kept)
    ensures forall j :: 0 <= j < |kept| ==> scores[kept[j]] >= threshold
    ensures forall p :: 0 <= p < |order| && p < topK ==>
      (order[p] in kept <==> scores[order[p]] >= threshold)
    ensures forall x :: x in kept ==> x in order[..Min(topK, |order|)]
  {
    var window := order[..Min(topK, |order|)];
    assert forall p :: 0 <= p < |order| && p < topK ==> order[p] == window[p];
    var kept := Passing(scores, window, threshold);
    assert forall j :: 0 <= j < |kept| ==> kept[j] in kept;
    kept
  }

  /** Under a descending ranking the emitted indices have non-increasing scores and
      no index is emitted twice. */
  lemma {:induction false} KeptIndicesRanked(scores: seq<real>, order: seq<nat>, topK: nat, threshold: real)
    requires RanksDescending(scores, order)
    ensures Descending(scores, KeptIndices(scores, order, topK, threshold))
    ensures Distinct(KeptIndices(scores, order, topK, threshold))
  {
    var window := order[..Min(topK, |order|)];
    assert Descending(scores, window) && Distinct(window) by {
      assert forall p :: 0 <= p < |window| ==> window[p] == order[p];
    }
    PassingDescending(scores, window, threshold);
    PassingDistinct(scores, window, threshold);
  }

  /** The rule as one would state it without slicing first: walk the ranking, skip
      indices below `threshold`, and stop once `k` have been emitted. */
  function EmitUntil(scores: seq<real>, idxs: seq<nat>, k: nat, threshold: real): seq<nat>
    requires InRange(scores, idxs)
  {
    if |idxs| == 0 || k == 0 then []
    else if scores[idxs[0]] < threshold then EmitUntil(scores, idxs[1..], k, threshold)
    else [idxs[0]] + EmitUntil(scores, idxs[1..], k - 1, threshold)
  }

  /** When every index in `idxs` is below `threshold`, neither rule emits anything. */
  lemma {:induction false} AllBelowEmitsNothing(scores: seq<real>, idxs: seq<nat>, k: nat, threshold: real)
    requires InRange(scores, idxs)
    requires forall p :: 0 <= p < |idxs| ==> scores[idxs[p]] < threshold
    ensures Passing(scores, idxs, threshold) == []
    ensures EmitUntil(scores, idxs, k, threshold) == []
  {
    if |idxs| > 0 {
      var tail := idxs[1..];
      assert forall p :: 0 <= p < |tail| ==> tail[p] == idxs[p + 1];
      AllBelowEmitsNothing(scores, tail, k, threshold);
    }
  }

  /** Slicing the ranking to `top_k` before filtering by `threshold` emits exactly
      what "emit passing indices until `top_k` have been emitted" emits, because the
      ranking is descending: once one index falls below the threshold, all later
      ones do too. */
  lemma {:induction false} SliceThenFilterIsEmitUntil(scores: seq<real>, order: seq<nat>, k: nat, threshold: real)
    requires Descending(scores, order)
    ensures Passing(scores, order[..Min(k, |order|)], threshold) == EmitUntil(scores, order, k, threshold)
  {
    if |order| > 0 && k > 0 {
      var window := order[..Min(k, |order|)];
      assert forall p :: 0 <= p < |window| ==> window[p] == order[p];
      if scores[order[0]] < threshold {
        assert forall p :: 0 <= p < |order| ==> scores[order[p]] < threshold;
        AllBelowEmitsNothing(scores, window, k, threshold);
        AllBelowEmitsNothing(scores, order, k, threshold);
      } else {
        DescendingHead(scores, order);
        var tail := order[1..];
        var tailWindow := tail[..Min(k - 1, |tail|)];
        assert window[1..] == tailWindow;
        SliceThenFilterIsEmitUntil(scores, tail, k - 1, threshold);
      }
    }
  }

  const ClassIndexError: string := "index out of bounds for classes_"

  /** `LabelScore(id=str(binarizer.classes_[idx]), score=score)` for each emitted
      index; indexing past the end of `classes_` raises. */
  function Label(scores: seq<real>, kept: seq<nat>, classes: seq<string>): (r: Result<seq<LabelScore>, string>)
    requires InRange(scores, kept)
    ensures r.Success? <==> forall j :: 0 <= j < |kept| ==> kept[j] < |classes|
    ensures r.Failure? ==> r.error == ClassIndexError
    ensures r.Success? ==> |r.value| == |kept| && forall j :: 0 <= j < |kept| ==>
      r.value[j] == LabelScore(classes[kept[j]], Some(scores[kept[j]]))
  {
    if forall j :: 0 <= j < |kept| ==> kept[j] < |classes| then
      Success(seq(|kept|, j requires 0 <= j < |kept| => LabelScore(classes[kept[j]], Some(scores[kept[j]]))))
    else Failure(ClassIndexError)
  }

  /** `order` is an admissible `np.argsort(row)[::-1]` for row 0 of the matrix,
      whenever the path gets as far as ranking it. */
  predicate RanksRow0(proba: Option<Matrix>, order: seq<nat>) {
    proba.Some? && |proba.value.rows| > 0 && proba.value.width > 0 ==>
      RanksDescending(proba.value.rows[0], order)
  }

  /** The ranking of row 0 of the matrix when `argsort` is NumPy's answer on a
      score vector (none when there is no row 0). Every admissible answer is
      used as given. */
  function Row0Order(argsort: seq<real> -> seq<nat>, proba: Option<Matrix>): (order: seq<nat>)
    ensures RanksRow0(proba, order)
    ensures proba.Some? && |proba.value.rows| > 0 && RanksDescending(proba.value.rows[0], argsort(proba.value.rows[0])) ==>
      order == argsort(proba.value.rows[0])
  {
    if proba.Some? && |proba.value.rows| > 0 then Arrange(proba.value.rows[0], argsort(proba.value.rows[0])) else []
  }

  /** The probability path: row 0 of the matrix, ranked by `order`, sliced,
      thresholded and labelled; nothing when there is no matrix or it has no
      cells. Every property is stated for any admissible `order`, since NumPy
      does not fix the order of equal scores. */
  function ProbabilityPath(proba: Option<Matrix>, order: seq<nat>, classes: seq<string>, topK: nat, threshold: real): (r: Result<seq<LabelScore>, string>)
    requires RanksRow0(proba, order)
    ensures (proba.None? || proba.value.Size() == 0) ==> r == Success([])
    ensures r.Failure? ==> r.error == ClassIndexError
    ensures r.Success? ==> |r.value| <= topK
    ensures r.Success? ==> forall j :: 0 <= j < |r.value| ==>
      r.value[j].score.Some? && r.value[j].score.value >= threshold
    ensures r.Success? ==> forall i, j :: 0 <= i < j < |r.value| ==>
      r.value[i].score.Some? && r.value[j].score.Some? && r.value[i].score.value >= r.value[j].score.value
  {
    if proba.None? || proba.value.Size() == 0 then Success([])
    else
      var m := proba.value;
      assert |m.rows| > 0 && m.width > 0;
      var scores := m.rows[0];
      var kept := KeptIndices(scores, order, topK, threshold);
      KeptIndicesRanked(scores, order, topK, threshold);
      Label(scores, kept, classes)
  }

  /** On a matrix with cells, the probability path labels exactly the indices
      `KeptIndices` keeps from the ranking of row 0. */
  lemma PathLabelsKept(m: Matrix, order: seq<nat>, classes: seq<string>, topK: nat, threshold: real)
    requires m.Size() > 0
    requires RanksRow0(Some(m), order)
    ensures |m.rows| > 0 && RanksDescending(m.rows[0], order)
    ensures var row := m.rows[0];
      && InRange(row, KeptIndices(row, order, topK, threshold))
      && ProbabilityPath(Some(m), order, classes, topK, threshold) == Label(row, KeptIndices(row, order, topK, threshold), classes)
  {
    assert |m.rows| > 0 && m.width > 0;
  }

  /** Every scored entry names `classes_[idx]` for an index of row 0, with that
      index's score, and no index is named twice. */
  lemma {:induction false} ProbabilityPathNamesClasses(m: Matrix, order: seq<nat>, classes: seq<string>, topK: nat, threshold: real)
    requires m.Size() > 0
    requires RanksRow0(Some(m), order)
    requires ProbabilityPath(Some(m), order, classes, topK, threshold).Success?
    ensures |m.rows| > 0 && RanksDescending(m.rows[0], order)
    ensures var row := m.rows[0];
      var kept := KeptIndices(row, order, topK, threshold);
      var r := ProbabilityPath(Some(m), order, classes, topK, threshold).value;
      && Distinct(kept)
      && |r| == |kept|
      && forall j :: 0 <= j < |kept| ==>
           kept[j] < |row| && kept[j] < |classes|
           && r[j] == LabelScore(classes[kept[j]], Some(row[kept[j]]))
  {
    PathLabelsKept(m, order, classes, topK, threshold);
    KeptIndicesRanked(m.rows[0], order, topK, threshold);
  }

  /** With scores 0.5 and 0.5 and `top_k` 1, the ranking that puts index `o`
      first emits the class at index `o`. */
  lemma TieKeepsFirstRanked(o: nat)
    requires o < 2
    ensures RanksRow0(Some(Array2(2, [[0.5, 0.5]])), [o, 1 - o])
    ensures ProbabilityPath(Some(Array2(2, [[0.5, 0.5]])), [o, 1 - o], ["A", "B"], 1, 0.0)
      == Success([LabelScore(["A", "B"][o], Some(0.5))])
  {
    TiesEitherWay();
    var m: Matrix := Array2(2, [[0.5, 0.5]]);
    var scores := [0.5, 0.5];
    PathLabelsKept(m, [o, 1 - o], ["A", "B"], 1, 0.0);
    assert [o, 1 - o][..Min(1, 2)] == [o];
    assert Passing(scores, [o], 0.0) == [o];
    var r := Label(scores, [o], ["A", "B"]);
    assert r.Success? && |r.value| == 1 && r.value[0] == LabelScore(["A", "B"][o], Some(0.5));
    assert r.value == [LabelScore(["A", "B"][o], Some(0.5))];
  }

  /** The order of equal scores decides which label a tie yields: with scores
      0.5 and 0.5 and `top_k` 1, ranking `[0, 1]` emits class A and ranking
      `[1, 0]` emits class B, and both rankings are admissible. */
  lemma TieOrderDecidesLabel()
    ensures RanksRow0(Some(Array2(2, [[0.5, 0.5]])), [0, 1])
    ensures RanksRow0(Some(Array2(2, [[0.5, 0.5]])), [1, 0])
    ensures ProbabilityPath(Some(Array2(2, [[0.5, 0.5]])), [0, 1], ["A", "B"], 1, 0.0)
      == Success([LabelScore("A", Some(0.5))])
    ensures ProbabilityPath(Some(Array2(2, [[0.5, 0.5]])), [1, 0], ["A", "B"], 1, 0.0)
      == Success([LabelScore("B", Some(0.5))])
  {
    TieKeepsFirstRanked(0);
    TieKeepsFirstRanked(1);
  }

  /** `decoded[0] if decoded else []`. */
  function FirstRow(decoded: seq<seq<string>>): seq<string> {
    if |decoded| > 0 then decoded[0] else []
  }

  /** The hard-label fallback: the first `top_k` decoded labels, without scores. */
  function Fallback(decoded: seq<seq<string>>, topK: nat): (r: seq<LabelScore>)
    ensures |r| == Min(topK, |FirstRow(decoded)|)
    ensures forall i :: 0 <= i < |r| ==> r[i] == LabelScore(FirstRow(decoded)[i], None)
  {
    var labels := FirstRow(decoded);
    seq(Min(topK, |labels|), i requires 0 <= i < Min(topK, |labels|) => LabelScore(labels[i], None))
  }

  /** A list of labels as one taxonomy's prediction can end: at most `topK`
      entries, and either every entry carries a score of at least `threshold`
      or none carries a score. */
  predicate Capped(labels: seq<LabelScore>, topK: nat, threshold: real) {
    && |labels| <= topK
    && (|| (forall j :: 0 <= j < |labels| ==> labels[j].score.Some? && labels[j].score.value >= threshold)
        || (forall j :: 0 <= j < |labels| ==> labels[j].score.None?))
  }

  /** `_predict_labels` with the classifier's outputs given as data: `proba` is the
      normalised `predict_proba` output (None when the classifier has none),
      `order` is how `np.argsort(...)[::-1]` ranks its row 0, and `decoded` is
      `inverse_transform(predict(features))`, or the error that computing it
      raises. The fallback is consulted only when the probability path emitted
      nothing. */
  function SelectLabels(
    proba: Option<Matrix>,
    order: seq<nat>,
    classes: seq<string>,
    decoded: Result<seq<seq<string>>, string>,
    topK: nat,
    threshold: real
  ): (r: Result<seq<LabelScore>, string>)
    requires RanksRow0(proba, order)
    ensures r.Success? ==> Capped(r.value, topK, threshold)
    ensures r.Success? && (exists j :: 0 <= j < |r.value| && r.value[j].score.None?) ==>
      ProbabilityPath(proba, order, classes, topK, threshold) == Success([])
    ensures ProbabilityPath(proba, order, classes, topK, threshold).Failure? ==>
      r == ProbabilityPath(proba, order, classes, topK, threshold)
    ensures ProbabilityPath(proba, order, classes, topK, threshold) == Success([]) && decoded.Failure? ==>
      r == Failure(decoded.error)
    ensures ProbabilityPath(proba, order, classes, topK, threshold) == Success([]) && decoded.Success? ==>
      && r.Success?
      && |r.value| == Min(topK, |FirstRow(decoded.value)|)
      && forall i :: 0 <= i < |r.value| ==> r.value[i] == LabelScore(FirstRow(decoded.value)[i], None)
    ensures ProbabilityPath(proba, order, classes, topK, threshold).Success? && |ProbabilityPath(proba, order, classes, topK, threshold).value| > 0 ==>
      r == ProbabilityPath(proba, order, classes, topK, threshold)
  {
    match ProbabilityPath(proba, order, classes, topK, threshold)
    case Failure(e) => Failure(e)
    case Success(scored) =>
      if |scored| > 0 then Success(scored)
      else
        match decoded
        case Failure(e) => Failure(e)
        case Success(d) => Success(Fallback(d, topK))
  }

  /** The worked example's scores have one admissible ranking: no two are equal. */
  lemma ExampleRanking(order: seq<nat>)
    requires RanksDescending([0.30, 0.10, 0.81], order)
    ensures order == [2, 0, 1]
  {
    var scores := [0.30, 0.10, 0.81];
    assert 2 in order && 0 in order && 1 in order;
    assert order[0] == 2 by {
      var p :| 0 <= p < 3 && order[p] == 2;
      if p > 0 { assert scores[order[0]] >= scores[2]; }
    }
    assert order[2] == 1 by {
      var p :| 0 <= p < 3 && order[p] == 1;
      if p < 2 { assert scores[1] >= scores[order[2]]; }
    }
    assert order[1] == 0;
  }

  /** The indices the worked example keeps. */
  lemma ExampleKept()
    ensures KeptIndices([0.30, 0.10, 0.81], [2, 0, 1], 3, 0.25) == [2, 0]
  {
    var scores := [0.30, 0.10, 0.81];
    assert [2, 0, 1][..Min(3, 3)] == [2, 0, 1];
    assert [1][1..] == [];
    assert Passing(scores, [1], 0.25) == [];
    assert [0, 1][1..] == [1];
    assert Passing(scores, [0, 1], 0.25) == [0];
    assert [2, 0, 1][1..] == [0, 1];
    assert Passing(scores, [2, 0, 1], 0.25) == [2, 0];
  }

  /** The labels the worked example's kept indices name. */
  lemma ExampleLabels()
    ensures Label([0.30, 0.10, 0.81], [2, 0], ["CWE-564", "CWE-79", "CWE-89"])
      == Success([LabelScore("CWE-89", Some(0.81)), LabelScore("CWE-564", Some(0.30))])
  {
    var classes := ["CWE-564", "CWE-79", "CWE-89"];
    var r := Label([0.30, 0.10, 0.81], [2, 0], classes);
    assert r.Success? && |r.value| == 2;
    assert r.value[0] == LabelScore(classes[2], Some(0.81));
    assert r.value[1] == LabelScore(classes[0], Some(0.30));
    assert classes[2] == "CWE-89" && classes[0] == "CWE-564";
    assert r.value == [LabelScore("CWE-89", Some(0.81)), LabelScore("CWE-564", Some(0.30))];
  }

  /** The worked example: scores {CWE-89: 0.81, CWE-564: 0.30, CWE-79: 0.10}, top_k
      3 and threshold 0.25 keep CWE-89 then CWE-564 under every admissible
      ranking; CWE-79 falls below the threshold. */
  lemma SqlInjectionExample(order: seq<nat>)
    requires RanksDescending([0.30, 0.10, 0.81], order)
    ensures RanksRow0(Some(Array2(3, [[0.30, 0.10, 0.81]])), order)
    ensures ProbabilityPath(Some(Array2(3, [[0.30, 0.10, 0.81]])), order, ["CWE-564", "CWE-79", "CWE-89"], 3, 0.25)
      == Success([LabelScore("CWE-89", Some(0.81)), LabelScore("CWE-564", Some(0.30))])
  {
    var m: Matrix := Array2(3, [[0.30, 0.10, 0.81]]);
    assert m.rows[0] == [0.30, 0.10, 0.81];
    PathLabelsKept(m, order, ["CWE-564", "CWE-79", "CWE-89"], 3, 0.25);
    ExampleRanking(order);
    ExampleKept();
    ExampleLabels();
  }

  /** A classifier with no probabilities whose hard labels decode to CWE-79 and
      CWE-89 yields, for top_k 1, just CWE-79 without a score. */
  lemma HardLabelExample(threshold: real)
    ensures SelectLabels(None, [], [], Success([["CWE-79", "CWE-89"]]), 1, threshold)
      == Success([LabelScore("CWE-79", None)])
  {
    var r := SelectLabels(None, [], [], Success([["CWE-79", "CWE-89"]]), 1, threshold);
    assert FirstRow([["CWE-79", "CWE-89"]]) == ["CWE-79", "CWE-89"];
    assert r.Success? && |r.value| == 1;
    assert r.value[0] == LabelScore("CWE-79", None);
    assert r.value == [LabelScore("CWE-79", None)];
  }
}

=== FILE: service.dfy ===
/** The request pipeline of the threat-mapping service: `_run_prediction` (reject a
    blank description, extract features, check feature widths, predict both
    taxonomies), the `predict_batch` mapping and the `_require_token` gate. The
    vectorizer and the classifiers are pure functions held in `Artifacts`; what
    they compute is left abstract. */
module Service {
  import opened Wrappers
  import opened Text
  import opened Ranking
  import opened Normaliser
  import opened Selector

  /** The two label taxonomies the service predicts. */
  datatype Taxonomy = Cwe | Capec
  {
    function Name(): string {
      match this
      case Cwe => "CWE"
      case Capec => "CAPEC"
    }
  }

  /** The HTTP errors a request can end in. */
  datatype ApiError =
    | BadRequest(detail: string)
    | Unauthorized
    | FeatureMismatch(taxonomy: Taxonomy, got: nat, expected: nat)
    | PredictionFailed(cause: string)
  {
    /** The HTTP status code the error is raised with. */
    function Status(): nat {
      match this
      case BadRequest(_) => 400
      case Unauthorized => 401
      case FeatureMismatch(_, _, _) => 500
      case PredictionFailed(_) => 500
    }

    /** The `detail` text of the HTTP error. */
    function Detail(): string {
      match this
      case BadRequest(d) => d
      case Unauthorized => "Unauthorized"
      case FeatureMismatch(t, got, expected) =>
        MismatchOpening + Decimal(got) + FeaturesSep + t.Name()
        + ExpectsSep + Decimal(expected) + MismatchClosing
      case PredictionFailed(cause) => "Prediction failed: " + cause
    }
  }

  const EmptyDescription: string := "Description must not be empty"

  /** The fixed pieces of the mismatch message, between which it names the
      feature count, the taxonomy and the declared width. */
  const MismatchOpening: string := "Model-vectorizer mismatch: got "
  const FeaturesSep: string := " features, "
  const ExpectsSep: string := " model expects "
  const MismatchClosing: string := ". Please ensure vectorizer and models are from the same training run."

  /** The character for decimal digit `d`. */
  function DigitChar(d: nat): char
    requires d < 10
  {
    (48 + d) as char
  }

  predicate IsDigit(c: char) {
    '0' <= c <= '9'
  }

  /** Python's `str(n)` for a non-negative integer: its decimal digits, with no
      leading zero. */
  function Decimal(n: nat): (s: string)
    ensures |s| >= 1
    ensures forall k :: 0 <= k < |s| ==> IsDigit(s[k])
    ensures s[0] == '0' ==> n == 0
  {
    if n < 10 then [DigitChar(n)]
    else Decimal(n / 10) + [DigitChar(n % 10)]
  }

  /** The number a string of decimal digits denotes. */
  function DigitsValue(s: string): nat
    requires forall k :: 0 <= k < |s| ==> IsDigit(s[k])
  {
    if |s| == 0 then 0
    else
      assert IsDigit(s[|s| - 1]);
      DigitsValue(s[..|s| - 1]) * 10 + (s[|s| - 1] as int - 48)
  }

  /** Reading the decimal rendering of `n` back gives `n`: the numbers in a
      mismatch message are the widths that were compared. */
  lemma {:induction false} DecimalValue(n: nat)
    ensures DigitsValue(Decimal(n)) == n
  {
    if n >= 10 {
      DecimalValue(n / 10);
      var s := Decimal(n);
      assert s[..|s| - 1] == Decimal(n / 10);
    }
  }

  /** The mismatch message states what was compared: the digits after its
      fixed opening read back as the feature count `got`, the taxonomy's name
      follows " features, ", the digits after " model expects " read back
      as the declared width `expected`, and the advice to use artifacts from
      one training run closes it. */
  lemma {:induction false} MismatchDetailStatesWidth(t: Taxonomy, got: nat, expected: nat)
    ensures var d := FeatureMismatch(t, got, expected).Detail();
      var p := |MismatchOpening| + |Decimal(got)|;
      var q := p + |FeaturesSep| + |t.Name()| + |ExpectsSep|;
      var e := q + |Decimal(expected)|;
      && e <= |d|
      && d[..|MismatchOpening|] == MismatchOpening
      && d[|MismatchOpening|..p] == Decimal(got)
      && DigitsValue(d[|MismatchOpening|..p]) == got
      && d[p..p + |FeaturesSep|] == FeaturesSep
      && d[p + |FeaturesSep|..q - |ExpectsSep|] == t.Name()
      && d[q - |ExpectsSep|..q] == ExpectsSep
      && d[q..e] == Decimal(expected)
      && DigitsValue(d[q..e]) == expected
      && d[e..] == MismatchClosing
  {
    PiecesAt(MismatchOpening, Decimal(got), FeaturesSep, t.Name(), ExpectsSep, Decimal(expected), MismatchClosing);
    DecimalValue(got);
    DecimalValue(expected);
  }

  /** Where each of seven concatenated strings sits in the concatenation. */
  lemma PiecesAt(a: string, b: string, c: string, d: string, e: string, f: string, g: string)
    ensures var s := a + b + c + d + e + f + g;
      var pb := |a|;
      var pc := pb + |b|;
      var pd := pc + |c|;
      var pe := pd + |d|;
      var pf := pe + |e|;
      var pg := pf + |f|;
      && pg <= |s|
      && s[..pb] == a && s[pb..pc] == b && s[pc..pd] == c && s[pd..pe] == d
      && s[pe..pf] == e && s[pf..pg] == f && s[pg..] == g
  {
    var s := a + b + c + d + e + f + g;
    PrefixSlices(a + b + c + d + e + f, g);
    PrefixSlices(a + b + c + d + e, f);
    PrefixSlices(a + b + c + d, e);
    PrefixSlices(a + b + c, d);
    PrefixSlices(a + b, c);
    PrefixSlices(a, b);
  }

  /** Slicing a concatenation at the seam gives back its parts. */
  lemma PrefixSlices(x: string, y: string)
    ensures (x + y)[..|x|] == x && (x + y)[|x|..] == y
  {
  }

  /** The vectorizer's output as the pipeline sees it: its `shape`, when it has
      one, and its cells. Only the shape is inspected by the handler; the cells
      are what the (abstract) classifier functions read, so two feature values
      with the same shape can still lead to different predictions. */
  datatype Features = Features(shape: Option<(nat, nat)>, cells: seq<seq<real>>)

  /** `features.shape[1] if features.shape[0] > 0 else 0`. */
  function FeatureCount(shape: (nat, nat)): nat {
    if shape.0 > 0 then shape.1 else 0
  }

  /** One taxonomy's trained artifacts, a classifier and its label binarizer:
      - `featuresIn` is the classifier's `n_features_in_`, when it has one;
      - `predictProba` is its `predict_proba`, when it has one, raising or
        returning raw scores;
      - `decode` is `inverse_transform(predict(features))` (through `toarray`
        when the prediction is sparse), raising or returning one label row per
        input;
      - `classes` is the binarizer's `classes_`. */
  datatype Classifier = Classifier(
    featuresIn: Option<nat>,
    predictProba: Option<Features -> Result<RawProba, string>>,
    decode: Features -> Result<seq<seq<string>>, string>,
    classes: seq<string>)

  /** Everything the service loads at start-up, the vectorizer and the CWE and
      CAPEC classifiers, together with `argsort`: what `np.argsort(...)[::-1]`
      answers for a score vector on the platform the service runs on, which
      NumPy fixes only up to the order of equal scores. */
  datatype Artifacts = Artifacts(
    vectorize: string -> Result<Features, string>,
    argsort: seq<real> -> seq<nat>,
    cwe: Classifier,
    capec: Classifier)

  /** A prediction request: `description`, `top_k` and `threshold`. */
  datatype Request = Request(description: string, topK: nat, threshold: real)

  /** The field ranges the request schema enforces before the handler runs. */
  predicate ValidRequest(req: Request) {
    1 <= req.topK <= 20 && 0.0 <= req.threshold <= 1.0
  }

  /** A successful response: the labels of both taxonomies. */
  datatype Prediction = Prediction(cwe: seq<LabelScore>, capec: seq<LabelScore>)

  /** Whether a classifier that declares `n_features_in_` disagrees with the
      feature width. */
  predicate Mismatched(c: Classifier, width: nat) {
    c.featuresIn.Some? && c.featuresIn.value != width
  }

  /** The feature-width checks: CWE first, then CAPEC, and only when the
      features have a shape. */
  function CheckWidths(a: Artifacts, f: Features): (r: Outcome<ApiError>)
    ensures r.Pass? <==>
      f.shape.None? || (!Mismatched(a.cwe, FeatureCount(f.shape.value)) && !Mismatched(a.capec, FeatureCount(f.shape.value)))
    ensures r.Fail? ==> r.error.FeatureMismatch? && r.error.got == FeatureCount(f.shape.value)
    ensures r.Fail? && r.error.taxonomy == Cwe ==>
      a.cwe.featuresIn == Some(r.error.expected) && Mismatched(a.cwe, r.error.got)
    ensures r.Fail? && r.error.taxonomy == Capec ==>
      && a.capec.featuresIn == Some(r.error.expected) && Mismatched(a.capec, r.error.got)
      && !Mismatched(a.cwe, r.error.got)
    ensures f.shape.Some? && Mismatched(a.cwe, FeatureCount(f.shape.value)) ==>
      r == Fail(FeatureMismatch(Cwe, FeatureCount(f.shape.value), a.cwe.featuresIn.value))
    ensures (f.shape.Some? && !Mismatched(a.cwe, FeatureCount(f.shape.value))
             && Mismatched(a.capec, FeatureCount(f.shape.value))) ==>
      r == Fail(FeatureMismatch(Capec, FeatureCount(f.shape.value), a.capec.featuresIn.value))
  {
    match f.shape
    case None => Pass
    case Some(shape) =>
      var width := FeatureCount(shape);
      if Mismatched(a.cwe, width) then Fail(FeatureMismatch(Cwe, width, a.cwe.featuresIn.value))
      else if Mismatched(a.capec, width) then Fail(FeatureMismatch(Capec, width, a.capec.featuresIn.value))
      else Pass
  }

  /** The normalised probability matrix of a classifier: none when it has no
      `predict_proba` or that returns `None`. */
  function Probabilities(c: Classifier, f: Features): (r: Result<Option<Matrix>, string>)
    ensures c.predictProba.None? ==> r == Success(None)
    ensures c.predictProba.Some? && c.predictProba.value(f).Failure? ==>
      r == Failure(c.predictProba.value(f).error)
    ensures c.predictProba.Some? && c.predictProba.value(f).Success? ==>
      r == EnsureProbabilityArray(c.predictProba.value(f).value)
  {
    match c.predictProba
    case None => Success(None)
    case Some(predictProba) =>
      match predictProba(f)
      case Failure(e) => Failure(e)
      case Success(raw) => EnsureProbabilityArray(raw)
  }

  /** `_predict_labels` for one taxonomy, ranking row 0 as `argsort` answers. */
  function PredictTaxonomy(c: Classifier, argsort: seq<real> -> seq<nat>, f: Features, topK: nat, threshold: real): (r: Result<seq<LabelScore>, string>)
    ensures r.Success? ==> Capped(r.value, topK, threshold)
    ensures Probabilities(c, f).Failure? ==> r == Failure(Probabilities(c, f).error)
    ensures Probabilities(c, f).Success? ==>
      var proba := Probabilities(c, f).value;
      r == SelectLabels(proba, Row0Order(argsort, proba), c.classes, c.decode(f), topK, threshold)
    ensures c.predictProba.None? ==>
      r == (match c.decode(f)
            case Failure(e) => Failure(e)
            case Success(d) => Success(Fallback(d, topK)))
  {
    match Probabilities(c, f)
    case Failure(e) => Failure(e)
    case Success(proba) => SelectLabels(proba, Row0Order(argsort, proba), c.classes, c.decode(f), topK, threshold)
  }

  /** `_run_prediction`. A blank description is a 400 before anything is
      extracted; a width mismatch propagates as raised; any other failure of the
      vectorizer or either taxonomy becomes a 500 "Prediction failed". */
  function RunPrediction(a: Artifacts, req: Request): (r: Result<Prediction, ApiError>)
    requires ValidRequest(req)
    ensures r.Failure? && r.error.BadRequest? <==> AllSpace(req.description)
    ensures r.Failure? && r.error.BadRequest? ==> r.error.detail == EmptyDescription
    ensures r.Failure? ==> r.error.Status() == (if r.error.BadRequest? then 400 else 500)
    ensures r.Failure? && r.error.FeatureMismatch? ==>
      && a.vectorize(Strip(req.description)).Success?
      && CheckWidths(a, a.vectorize(Strip(req.description)).value) == Fail(r.error)
    ensures (!AllSpace(req.description) && a.vectorize(Strip(req.description)).Success?
             && CheckWidths(a, a.vectorize(Strip(req.description)).value).Fail?) ==>
      r == Failure(CheckWidths(a, a.vectorize(Strip(req.description)).value).error)
    ensures r.Success? ==>
      && Capped(r.value.cwe, req.topK, req.threshold)
      && Capped(r.value.capec, req.topK, req.threshold)
    ensures r.Success? ==>
      && a.vectorize(Strip(req.description)).Success?
      && CheckWidths(a, a.vectorize(Strip(req.description)).value).Pass?
  {
    var description := Strip(req.description);
    StripTrimmed(req.description);
    if |description| == 0 then Failure(BadRequest(EmptyDescription))
    else
      match a.vectorize(description)
      case Failure(e) => Failure(PredictionFailed(e))
      case Success(f) =>
        match CheckWidths(a, f)
        case Fail(e) => Failure(e)
        case Pass =>
          match PredictTaxonomy(a.cwe, a.argsort, f, req.topK, req.threshold)
          case Failure(e) => Failure(PredictionFailed(e))
          case Success(cwe) =>
            match PredictTaxonomy(a.capec, a.argsort, f, req.topK, req.threshold)
            case Failure(e) => Failure(PredictionFailed(e))
            case Success(capec) => Success(Prediction(cwe, capec))
  }

  /** A blank description is rejected the same way whatever the artifacts are:
      neither the vectorizer nor a classifier is consulted. */
  lemma {:induction false} BlankDescriptionTouchesNothing(a: Artifacts, b: Artifacts, req: Request)
    requires ValidRequest(req) && AllSpace(req.description)
    ensures RunPrediction(a, req) == RunPrediction(b, req) == Failure(BadRequest(EmptyDescription))
  {
  }

  /** On a width mismatch no prediction runs: replacing either classifier's
      prediction functions (keeping its declared width) does not change the
      error. */
  lemma {:induction false} MismatchRunsNoPrediction(a: Artifacts, req: Request, cwe: Classifier, capec: Classifier)
    requires ValidRequest(req)
    requires RunPrediction(a, req).Failure? && RunPrediction(a, req).error.FeatureMismatch?
    requires cwe.featuresIn == a.cwe.featuresIn && capec.featuresIn == a.capec.featuresIn
    ensures RunPrediction(a.(cwe := cwe, capec := capec), req) == RunPrediction(a, req)
  {
    var b := a.(cwe := cwe, capec := capec);
    var f := a.vectorize(Strip(req.description)).value;
    assert CheckWidths(b, f) == CheckWidths(a, f);
  }

  /** Past the blank check, the first step that fails decides the error: a
      vectorizer or taxonomy failure is wrapped as "Prediction failed" with its
      message, and when every step succeeds the response carries both
      taxonomies' labels, CWE computed before CAPEC. */
  lemma {:induction false} RunPredictionOutcomes(a: Artifacts, req: Request)
    requires ValidRequest(req) && !AllSpace(req.description)
    ensures var v := a.vectorize(Strip(req.description));
      v.Failure? ==> RunPrediction(a, req) == Failure(PredictionFailed(v.error))
    ensures var v := a.vectorize(Strip(req.description));
      v.Success? && CheckWidths(a, v.value).Pass? ==>
        var cwe := PredictTaxonomy(a.cwe, a.argsort, v.value, req.topK, req.threshold);
        var capec := PredictTaxonomy(a.capec, a.argsort, v.value, req.topK, req.threshold);
        RunPrediction(a, req) ==
          if cwe.Failure? then Failure(PredictionFailed(cwe.error))
          else if capec.Failure? then Failure(PredictionFailed(capec.error))
          else Success(Prediction(cwe.value, capec.value))
  {
  }

  /** When both classifiers disagree with the feature width, the error names
      CWE, with both widths. */
  lemma {:induction false} CweCheckedFirst(a: Artifacts, req: Request, f: Features)
    requires ValidRequest(req) && !AllSpace(req.description)
    requires a.vectorize(Strip(req.description)) == Success(f) && f.shape.Some?
    requires Mismatched(a.cwe, FeatureCount(f.shape.value))
    ensures RunPrediction(a, req)
      == Failure(FeatureMismatch(Cwe, FeatureCount(f.shape.value), a.cwe.featuresIn.value))
  {
  }

  /** A list comprehension over calls that may raise: the values in order when
      every call returns, otherwise the error of the first call that raises. */
  function Collect<T, E>(results: seq<Result<T, E>>): (r: Result<seq<T>, E>)
    ensures r.Success? <==> forall i :: 0 <= i < |results| ==> results[i].Success?
    ensures r.Success? ==> |r.value| == |results|
    ensures r.Success? ==> forall i :: 0 <= i < |results| ==> results[i] == Success(r.value[i])
    ensures r.Failure? ==> exists i :: (0 <= i < |results| && results[i] == Failure(r.error)
      && forall j :: 0 <= j < i ==> results[j].Success?)
  {
    if |results| == 0 then Success([])
    else
      var rest := Collect(results[1..]);
      assert forall i :: 1 <= i < |results| ==> results[i] == results[1..][i - 1];
      match results[0]
      case Failure(e) => Failure(e)
      case Success(p) =>
        match rest
        case Failure(e) =>
          var tail := results[1..];
          ghost var i :| 0 <= i < |tail| && tail[i] == Failure(e)
            && forall j :: 0 <= j < i ==> tail[j].Success?;
          assert results[i + 1] == Failure(e);
          assert forall j :: 0 <= j < i + 1 ==> results[j].Success?;
          Failure(e)
        case Success(ps) =>
          assert forall i :: 1 <= i < |results| ==> ([p] + ps)[i] == ps[i - 1];
          Success([p] + ps)
  }

  /** `_run_prediction` of every request, in order. */
  function Responses(a: Artifacts, items: seq<Request>): (rs: seq<Result<Prediction, ApiError>>)
    requires forall i :: 0 <= i < |items| ==> ValidRequest(items[i])
    ensures |rs| == |items|
    ensures forall i :: 0 <= i < |items| ==> rs[i] == RunPrediction(a, items[i])
  {
    seq(|items|, i requires 0 <= i < |items| => RunPrediction(a, items[i]))
  }

  /** `predict_batch` on a batch of 1 to 50 requests. */
  function PredictBatch(a: Artifacts, items: seq<Request>): (r: Result<seq<Prediction>, ApiError>)
    requires 1 <= |items| <= 50
    requires forall i :: 0 <= i < |items| ==> ValidRequest(items[i])
    ensures r.Success? <==> forall i :: 0 <= i < |items| ==> RunPrediction(a, items[i]).Success?
    ensures r.Success? ==> |r.value| == |items|
    ensures r.Success? ==> forall i :: 0 <= i < |items| ==> RunPrediction(a, items[i]) == Success(r.value[i])
    ensures r.Failure? ==> exists i :: (0 <= i < |items| && RunPrediction(a, items[i]) == Failure(r.error)
      && forall j :: 0 <= j < i ==> RunPrediction(a, items[j]).Success?)
  {
    var responses := Responses(a, items);
    var r := Collect(responses);
    assert r.Failure? ==> exists i :: (0 <= i < |items| && responses[i] == Failure(r.error)
      && forall j :: 0 <= j < i ==> responses[j].Success?);
    r
  }

  /** A batch of one request answers exactly as the single-request endpoint. */
  lemma {:induction false} BatchOfOne(a: Artifacts, req: Request)
    requires ValidRequest(req)
    ensures PredictBatch(a, [req]) == (match RunPrediction(a, req)
      case Failure(e) => Failure(e)
      case Success(p) => Success([p]))
  {
    var r := PredictBatch(a, [req]);
    assert [req][0] == req;
    if r.Success? {
      assert r.value == [r.value[0]];
    }
  }

  /** A batch fails as a whole with the 400 of its first blank item when every
      item before it succeeds: no partial results are returned. */
  lemma {:induction false} BlankItemFailsBatch(a: Artifacts, items: seq<Request>, k: nat)
    requires 1 <= |items| <= 50
    requires forall i :: 0 <= i < |items| ==> ValidRequest(items[i])
    requires k < |items| && AllSpace(items[k].description)
    requires forall j :: 0 <= j < k ==> RunPrediction(a, items[j]).Success?
    ensures PredictBatch(a, items) == Failure(BadRequest(EmptyDescription))
  {
    BlankDescriptionTouchesNothing(a, a, items[k]);
    var r := PredictBatch(a, items);
    assert !RunPrediction(a, items[k]).Success?;
    var i :| 0 <= i < |items| && RunPrediction(a, items[i]) == Failure(r.error)
      && forall j :: 0 <= j < i ==> RunPrediction(a, items[j]).Success?;
    assert i == k;
  }

  /** `_require_token`: with no token configured (absent or empty) every request
      passes; otherwise only a header equal to the token passes, and any other
      request is a 401. */
  function RequireToken(configured: Option<string>, header: Option<string>): (r: Outcome<ApiError>)
    ensures r.Fail? ==> r.error == Unauthorized && r.error.Status() == 401
  {
    if configured.None? || |configured.value| == 0 then Pass
    else if header != configured then Fail(Unauthorized)
    else Pass
  }

  /** The gate admits a request exactly when no token is configured or the
      header carries the configured token, character for character. */
  lemma {:induction false} TokenGateExact(configured: Option<string>, header: Option<string>)
    ensures RequireToken(configured, header).Pass? <==>
      configured.None? || configured.value == "" || (header.Some? && header.value == configured.value)
  {
  }

  /** The `/predict` endpoint: the token gate, then the handler. */
  function Predict(configured: Option<string>, header: Option<string>, a: Artifacts, req: Request): (r: Result<Prediction, ApiError>)
    requires ValidRequest(req)
    ensures RequireToken(configured, header).Fail? ==> r == Failure(Unauthorized)
    ensures RequireToken(configured, header).Pass? ==> r == RunPrediction(a, req)
  {
    match RequireToken(configured, header)
    case Fail(e) => Failure(e)
    case Pass => RunPrediction(a, req)
  }

  /** The `/predict/batch` endpoint: the token gate, then the batch handler. */
  function PredictBatchEndpoint(configured: Option<string>, header: Option<string>, a: Artifacts, items: seq<Request>): (r: Result<seq<Prediction>, ApiError>)
    requires 1 <= |items| <= 50
    requires forall i :: 0 <= i < |items| ==> ValidRequest(items[i])
    ensures RequireToken(configured, header).Fail? ==> r == Failure(Unauthorized)
    ensures RequireToken(configured, header).Pass? ==> r == PredictBatch(a, items)
  {
    match RequireToken(configured, header)
    case Fail(e) => Failure(e)
    case Pass => PredictBatch(a, items)
  }

  /** A caller without the configured token is refused before the request is
      looked at: even a blank description answers 401, not 400. */
  lemma {:induction false} GateBeforeValidation(t: string, header: Option<string>, a: Artifacts, req: Request)
    requires t != "" && header != Some(t)
    requires ValidRequest(req)
    ensures Predict(Some(t), header, a, req) == Failure(Unauthorized)
    ensures Predict(Some(t), header, a, req).error.Status() == 401
  {
  }
}

=== FILE: text.dfy ===
/** The Python string operations the service and the training script rely on:
    `str.isspace`, `str.strip`, `str.split(sep)`, `sep.join(parts)` and
    `str.replace(old, new)` for single characters. */
module Text {

  /** Python's `str.isspace` for one character: the ASCII whitespace characters
      U+0009..U+000D, the separators U+001C..U+001F, the space, and the Unicode
      space and line/paragraph separators. */
  predicate IsSpace(c: char) {
    var n := c as int;
    (9 <= n <= 13) || (28 <= n <= 32) || n == 0x85 || n == 0xA0 || n == 0x1680
    || (0x2000 <= n <= 0x200A) || n == 0x2028 || n == 0x2029 || n == 0x202F
    || n == 0x205F || n == 0x3000
  }

  /** Every character of `s` is whitespace (vacuously true of ""). */
  predicate AllSpace(s: string) {
    forall k :: 0 <= k < |s| ==> IsSpace(s[k])
  }

  /** Every character of `s` at positions `lo` up to (not including) `hi` is whitespace. */
  predicate SpaceBetween(s: string, lo: int, hi: int)
    requires 0 <= lo && hi <= |s|
  {
    forall k :: lo <= k < hi ==> IsSpace(s[k])
  }

  /** `s` has no whitespace at either end, i.e. `s == s.strip()`. */
  predicate Trimmed(s: string) {
    |s| == 0 || (!IsSpace(s[0]) && !IsSpace(s[|s| - 1]))
  }

  /** `s.lstrip()`: `s` without its leading whitespace. */
  function TrimStart(s: string): (r: string)
    ensures |r| <= |s|
  {
    if |s| > 0 && IsSpace(s[0]) then TrimStart(s[1..]) else s
  }

  /** `s.rstrip()`: `s` without its trailing whitespace. */
  function TrimEnd(s: string): (r: string)
    ensures |r| <= |s|
  {
    if |s| > 0 && IsSpace(s[|s| - 1]) then TrimEnd(s[..|s| - 1]) else s
  }

  /** Python's `str.strip()` with no argument. */
  function Strip(s: string): (r: string)
    ensures |r| <= |s|
  {
    TrimEnd(TrimStart(s))
  }

  /** `lstrip` removes a whitespace prefix and stops at the first other character. */
  lemma {:induction false} TrimStartFacts(s: string)
    ensures TrimStart(s) == s[|s| - |TrimStart(s)|..]
    ensures SpaceBetween(s, 0, |s| - |TrimStart(s)|)
    ensures |TrimStart(s)| > 0 ==> !IsSpace(TrimStart(s)[0])
  {
    if |s| > 0 && IsSpace(s[0]) {
      TrimStartFacts(s[1..]);
      var n := |s| - |TrimStart(s)|;
      assert forall k :: 1 <= k < n ==> s[k] == s[1..][k - 1];
    }
  }

  /** `rstrip` removes a whitespace suffix and stops at the last other character. */
  lemma {:induction false} TrimEndFacts(s: string)
    ensures TrimEnd(s) == s[..|TrimEnd(s)|]
    ensures SpaceBetween(s, |TrimEnd(s)|, |s|)
    ensures |TrimEnd(s)| > 0 ==> !IsSpace(TrimEnd(s)[|TrimEnd(s)| - 1])
  {
    if |s| > 0 && IsSpace(s[|s| - 1]) {
      var t := s[..|s| - 1];
      TrimEndFacts(t);
      assert forall k :: |TrimEnd(s)| <= k < |s| - 1 ==> s[k] == t[k];
    }
  }

  /** `strip` leaves no whitespace at either end, leaves nothing exactly when the
      input is all whitespace, and leaves a string without outer whitespace as it
      is. */
  lemma {:induction false} StripTrimmed(s: string)
    ensures Trimmed(Strip(s))
    ensures |Strip(s)| == 0 <==> AllSpace(s)
    ensures Trimmed(s) ==> Strip(s) == s
  {
    var t := TrimStart(s);
    var r := TrimEnd(t);
    TrimStartFacts(s);
    TrimEndFacts(t);
    var i := |s| - |t|;
    if |r| > 0 {
      assert r[0] == t[0];
    }
    if |t| > 0 {
      assert t[0] == s[i];
    }
    if !AllSpace(s) {
      var k :| 0 <= k < |s| && !IsSpace(s[k]);
      assert i <= k;
      assert t[k - i] == s[k];
      assert k - i < |r|;
    }
    if Trimmed(s) && |s| > 0 {
      assert t == s;
    }
  }

  /** `strip` removes only whitespace, and only at the ends: the result is the
      run of `s` that starts after the leading whitespace. */
  lemma {:induction false} StripRemovesOnlyOuterSpace(s: string)
    ensures |s| - |TrimStart(s)| + |Strip(s)| <= |s|
    ensures var i := |s| - |TrimStart(s)|;
      && Strip(s) == s[i..i + |Strip(s)|]
      && SpaceBetween(s, 0, i)
      && SpaceBetween(s, i + |Strip(s)|, |s|)
    ensures forall c :: c in Strip(s) ==> c in s
  {
    var t := TrimStart(s);
    var r := TrimEnd(t);
    TrimStartFacts(s);
    TrimEndFacts(t);
    var i := |s| - |t|;
    assert r == s[i..i + |r|];
    forall k | i + |r| <= k < |s| ensures IsSpace(s[k]) {
      assert s[k] == t[k - i];
    }
    forall c | c in r ensures c in s {
      var k :| 0 <= k < |r| && r[k] == c;
      assert s[i + k] == c;
    }
  }

  /** Python's `s.replace(from, to)` where both are single characters. */
  function ReplaceChar(s: string, from: char, to: char): (r: string)
    ensures |r| == |s|
    ensures forall k :: 0 <= k < |s| ==> r[k] == if s[k] == from then to else s[k]
  {
    seq(|s|, k requires 0 <= k < |s| => if s[k] == from then to else s[k])
  }

  /** Python's `s.split(sep)` with an explicit one-character separator: every
      separator ends a piece, so "" gives [""] and ",," gives ["", "", ""]. */
  function Split(s: string, sep: char): (parts: seq<string>)
    ensures |parts| >= 1
  {
    if |s| == 0 then [""]
    else
      var rest := Split(s[1..], sep);
      if s[0] == sep then [""] + rest
      else [[s[0]] + rest[0]] + rest[1..]
  }

  /** No piece of a split contains the separator, and every character of a piece
      comes from the input. */
  lemma {:induction false} SplitPieces(s: string, sep: char)
    ensures forall p :: p in Split(s, sep) ==> sep !in p && forall c :: c in p ==> c in s
  {
    if |s| > 0 {
      SplitPieces(s[1..], sep);
      var rest := Split(s[1..], sep);
      assert forall c :: c in s[1..] ==> c in s;
      assert forall p :: p in rest[1..] ==> p in rest;
      assert rest[0] in rest;
    }
  }

  /** Python's `sep.join(parts)` for a one-character separator. */
  function Join(parts: seq<string>, sep: char): string {
    if |parts| == 0 then ""
    else if |parts| == 1 then parts[0]
    else parts[0] + [sep] + Join(parts[1..], sep)
  }

  /** A string without the separator is one piece. */
  lemma {:induction false} SplitWithoutSeparator(s: string, sep: char)
    requires sep !in s
    ensures Split(s, sep) == [s]
  {
    if |s| > 0 {
      SplitWithoutSeparator(s[1..], sep);
      assert [s[0]] + s[1..] == s;
    }
  }

  /** A separator between `a` and `b` splits exactly there: the pieces of the
      whole are the pieces of `a` followed by the pieces of `b`. */
  lemma {:induction false} SplitAround(a: string, b: string, sep: char)
    ensures Split(a + [sep] + b, sep) == Split(a, sep) + Split(b, sep)
  {
    var s := a + [sep] + b;
    if |a| == 0 {
      assert s == [sep] + b;
      assert s[1..] == b;
    } else {
      assert s[1..] == a[1..] + [sep] + b;
      assert s[0] == a[0];
      SplitAround(a[1..], b, sep);
      var front := Split(a[1..], sep);
      var rest := front + Split(b, sep);
      assert Split(s, sep) == if a[0] == sep then [""] + rest else [[a[0]] + rest[0]] + rest[1..];
      if a[0] != sep {
        assert rest[0] == front[0];
        assert rest[1..] == front[1..] + Split(b, sep);
      }
    }
  }

  /** Joining pieces that avoid the separator and splitting again gives them back. */
  lemma {:induction false} SplitJoin(parts: seq<string>, sep: char)
    requires |parts| >= 1
    requires forall p :: p in parts ==> sep !in p
    ensures Split(Join(parts, sep), sep) == parts
  {
    if |parts| == 1 {
      SplitWithoutSeparator(parts[0], sep);
    } else {
      SplitJoin(parts[1..], sep);
      SplitWithoutSeparator(parts[0], sep);
      SplitAround(parts[0], Join(parts[1..], sep), sep);
      assert [parts[0]] + parts[1..] == parts;
    }
  }

  /** Every piece of a split is whitespace-only exactly when every character of
      the input is the separator or whitespace. */
  lemma {:induction false} SplitAllSpace(s: string, sep: char)
    ensures (forall p :: p in Split(s, sep) ==> AllSpace(p))
        <==> (forall k :: 0 <= k < |s| ==> s[k] == sep || IsSpace(s[k]))
  {
    if |s| > 0 {
      SplitAllSpace(s[1..], sep);
      var rest := Split(s[1..], sep);
      var parts := Split(s, sep);
      if s[0] == sep {
        assert parts == [""] + rest;
        assert forall p :: p in parts <==> p == "" || p in rest;
      } else {
        assert parts == [[s[0]] + rest[0]] + rest[1..];
        assert forall p :: p in rest <==> p == rest[0] || p in rest[1..];
        assert forall p :: p in parts <==> p == [s[0]] + rest[0] || p in rest[1..];
        var head := [s[0]] + rest[0];
        assert head[0] == s[0];
        assert forall k :: 1 <= k < |head| ==> head[k] == rest[0][k - 1];
        assert forall k :: 0 <= k < |rest[0]| ==> rest[0][k] == head[k + 1];
        assert AllSpace(head) <==> IsSpace(s[0]) && AllSpace(rest[0]);
      }
      assert forall k :: 1 <= k < |s| ==> s[k] == s[1..][k - 1];
    }
  }
}

=== FILE: training.dfy ===
/** The data-preparation half of the training script: turning a label cell such
    as "CWE-79; CWE-89" into a list of identifiers, and turning CSV rows into the
    three parallel lists the trainer consumes. */
module Training {
  import opened Wrappers
  import opened Text

  /** A character the label parser never keeps: a separator or whitespace. */
  predicate Ignorable(c: char) {
    c == ',' || c == ';' || IsSpace(c)
  }

  /** A token the parser can return: non-empty, separator-free, already stripped. */
  predicate WellFormedLabel(t: string) {
    |t| > 0 && ',' !in t && ';' !in t && Trimmed(t)
  }

  /** Each piece stripped, in order. */
  function StripEach(parts: seq<string>): (r: seq<string>)
    ensures |r| == |parts|
    ensures forall i :: 0 <= i < |parts| ==> r[i] == Strip(parts[i])
  {
    seq(|parts|, i requires 0 <= i < |parts| => Strip(parts[i]))
  }

  /** The non-empty tokens, in their original order. */
  function DropEmpty(tokens: seq<string>): (r: seq<string>)
    ensures |r| <= |tokens|
  {
    if |tokens| == 0 then []
    else if tokens[0] == "" then DropEmpty(tokens[1..])
    else [tokens[0]] + DropEmpty(tokens[1..])
  }

  /** Dropping keeps exactly the non-empty tokens: nothing kept is empty or new,
      and nothing is left only when every token was empty. */
  lemma {:induction false} DropEmptyContents(tokens: seq<string>)
    ensures forall t :: t in DropEmpty(tokens) ==> t != "" && t in tokens
    ensures DropEmpty(tokens) == [] <==> forall t :: t in tokens ==> t == ""
  {
    if |tokens| > 0 {
      DropEmptyContents(tokens[1..]);
      assert tokens[0] in tokens;
      assert forall t :: t in tokens <==> t == tokens[0] || t in tokens[1..];
    }
  }

  /** The parse without the empty-input guard. */
  function Tokens(raw: string): seq<string> {
    DropEmpty(StripEach(Split(ReplaceChar(raw, ';', ','), ',')))
  }

  /** `_parse_labels`: `;` and `,` both separate labels, each token is stripped,
      and empty tokens are dropped. */
  function ParseLabels(raw: string): seq<string> {
    if |raw| == 0 then [] else Tokens(raw)
  }

  /** Every returned label is non-empty, free of both separators and stripped. */
  lemma {:induction false} ParseLabelsWellFormed(raw: string)
    ensures forall t :: t in ParseLabels(raw) ==> WellFormedLabel(t)
  {
    if |raw| > 0 {
      var replaced := ReplaceChar(raw, ';', ',');
      assert ';' !in replaced by {
        forall k | 0 <= k < |replaced| ensures replaced[k] != ';' {
        }
      }
      var parts := Split(replaced, ',');
      SplitPieces(replaced, ',');
      var stripped := StripEach(parts);
      forall t | t in stripped ensures ',' !in t && ';' !in t && Trimmed(t) {
        var i :| 0 <= i < |stripped| && stripped[i] == t;
        assert parts[i] in parts;
        StripRemovesOnlyOuterSpace(parts[i]);
        StripTrimmed(parts[i]);
      }
      DropEmptyContents(stripped);
    }
  }

  /** Stripping leaves only empty strings exactly when every piece was whitespace. */
  lemma {:induction false} StripEachAllEmpty(parts: seq<string>)
    ensures (forall t :: t in StripEach(parts) ==> t == "") <==> (forall p :: p in parts ==> AllSpace(p))
  {
    var stripped := StripEach(parts);
    forall p | p in parts ensures Strip(p) in stripped && (Strip(p) == "" <==> AllSpace(p)) {
      var i :| 0 <= i < |parts| && parts[i] == p;
      assert stripped[i] == Strip(p);
      StripTrimmed(p);
    }
    forall t | t in stripped ensures exists p :: p in parts && t == Strip(p) {
      var i :| 0 <= i < |stripped| && stripped[i] == t;
      assert parts[i] in parts;
    }
  }

  /** After `;` becomes `,`, a character is a comma or whitespace exactly when the
      original one was ignorable. */
  lemma {:induction false} ReplacedIgnorable(raw: string)
    ensures var replaced := ReplaceChar(raw, ';', ',');
      (forall k :: 0 <= k < |replaced| ==> replaced[k] == ',' || IsSpace(replaced[k]))
      <==> (forall k :: 0 <= k < |raw| ==> Ignorable(raw[k]))
  {
    var replaced := ReplaceChar(raw, ';', ',');
    forall k | 0 <= k < |raw|
      ensures (replaced[k] == ',' || IsSpace(replaced[k])) <==> Ignorable(raw[k])
    {
    }
  }

  /** The parse is empty exactly when the cell holds nothing but separators and
      whitespace. */
  lemma {:induction false} ParseLabelsEmpty(raw: string)
    ensures ParseLabels(raw) == [] <==> forall k :: 0 <= k < |raw| ==> Ignorable(raw[k])
  {
    if |raw| > 0 {
      var replaced := ReplaceChar(raw, ';', ',');
      var parts := Split(replaced, ',');
      StripEachAllEmpty(parts);
      DropEmptyContents(StripEach(parts));
      SplitAllSpace(replaced, ',');
      ReplacedIgnorable(raw);
    }
  }

  /** The `if not raw` guard is redundant: the general path also gives [] for "". */
  lemma {:induction false} EmptyGuardRedundant(raw: string)
    ensures ParseLabels(raw) == Tokens(raw)
  {
    if |raw| == 0 {
      assert ReplaceChar(raw, ';', ',') == "";
      assert StripEach([""]) == [""];
    }
  }

  lemma {:induction false} DropEmptyAppend(a: seq<string>, b: seq<string>)
    ensures DropEmpty(a + b) == DropEmpty(a) + DropEmpty(b)
  {
    if |a| > 0 {
      assert (a + b)[1..] == a[1..] + b;
      DropEmptyAppend(a[1..], b);
    } else {
      assert a + b == b;
    }
  }

  lemma {:induction false} DropEmptyKeepsNonEmpty(tokens: seq<string>)
    requires forall t :: t in tokens ==> t != ""
    ensures DropEmpty(tokens) == tokens
  {
    if |tokens| > 0 {
      assert tokens[0] in tokens;
      assert forall t :: t in tokens[1..] ==> t in tokens;
      DropEmptyKeepsNonEmpty(tokens[1..]);
      assert [tokens[0]] + tokens[1..] == tokens;
    }
  }

  /** Replacing in `a`, a character `c` that is not replaced, and `b` replaces in
      each part. */
  lemma {:induction false} ReplaceAround(a: string, b: string, from: char, to: char, c: char)
    requires c != from
    ensures ReplaceChar(a + [c] + b, from, to) == ReplaceChar(a, from, to) + [c] + ReplaceChar(b, from, to)
  {
    var s := a + [c] + b;
    var r := ReplaceChar(a, from, to) + [c] + ReplaceChar(b, from, to);
    forall k | 0 <= k < |s| ensures ReplaceChar(s, from, to)[k] == r[k] {
      if k < |a| {
        assert s[k] == a[k];
      } else if k > |a| {
        assert s[k] == b[k - |a| - 1];
      }
    }
  }

  lemma {:induction false} StripEachAppend(a: seq<string>, b: seq<string>)
    ensures StripEach(a + b) == StripEach(a) + StripEach(b)
  {
    var s := StripEach(a + b);
    var r := StripEach(a) + StripEach(b);
    forall k | 0 <= k < |s| ensures s[k] == r[k] {
      if k < |a| {
        assert (a + b)[k] == a[k];
        assert r[k] == StripEach(a)[k];
      } else {
        assert (a + b)[k] == b[k - |a|];
        assert r[k] == StripEach(b)[k - |a|];
      }
    }
    assert s == r;
  }

  /** Labels keep their input order: parsing two cells joined by a comma gives
      the labels of the first followed by those of the second. */
  lemma {:induction false} ParseLabelsConcat(a: string, b: string)
    ensures ParseLabels(a + "," + b) == ParseLabels(a) + ParseLabels(b)
  {
    EmptyGuardRedundant(a);
    EmptyGuardRedundant(b);
    EmptyGuardRedundant(a + "," + b);
    var ra, rb := ReplaceChar(a, ';', ','), ReplaceChar(b, ';', ',');
    ReplaceAround(a, b, ';', ',', ',');
    SplitAround(ra, rb, ',');
    var pa, pb := Split(ra, ','), Split(rb, ',');
    StripEachAppend(pa, pb);
    DropEmptyAppend(StripEach(pa), StripEach(pb));
  }

  /** Replacing every `;` by `,` does not change the labels. */
  lemma {:induction false} SeparatorsInterchangeable(raw: string)
    ensures ParseLabels(ReplaceChar(raw, ';', ',')) == ParseLabels(raw)
  {
    var once := ReplaceChar(raw, ';', ',');
    assert ReplaceChar(once, ';', ',') == once;
  }

  /** Replacing a character that does not occur changes nothing. */
  lemma {:induction false} ReplaceAbsent(s: string, from: char, to: char)
    requires from !in s
    ensures ReplaceChar(s, from, to) == s
  {
  }

  /** A character that is neither the separator nor in any part is not in the join. */
  lemma {:induction false} JoinAvoids(parts: seq<string>, sep: char, c: char)
    requires c != sep
    requires forall p :: p in parts ==> c !in p
    ensures c !in Join(parts, sep)
  {
    if |parts| > 1 {
      assert parts[0] in parts;
      assert forall p :: p in parts[1..] ==> p in parts;
      JoinAvoids(parts[1..], sep, c);
    }
  }

  /** Stripping already-stripped tokens changes nothing. */
  lemma {:induction false} StripEachTrimmed(tokens: seq<string>)
    requires forall t :: t in tokens ==> Trimmed(t)
    ensures StripEach(tokens) == tokens
  {
    forall i | 0 <= i < |tokens| ensures StripEach(tokens)[i] == tokens[i] {
      assert tokens[i] in tokens;
      StripTrimmed(tokens[i]);
    }
  }

  /** Joining the parsed labels with "," and parsing again gives the same labels. */
  lemma {:induction false} ParseLabelsIdempotent(raw: string)
    ensures ParseLabels(Join(ParseLabels(raw), ',')) == ParseLabels(raw)
  {
    var labels := ParseLabels(raw);
    if labels != [] {
      ParseLabelsWellFormed(raw);
      var joined := Join(labels, ',');
      EmptyGuardRedundant(joined);
      JoinAvoids(labels, ',', ';');
      ReplaceAbsent(joined, ';', ',');
      SplitJoin(labels, ',');
      StripEachTrimmed(labels);
      DropEmptyKeepsNonEmpty(labels);
    }
  }

  /** `row.get(key, "")`. */
  function Cell(row: map<string, string>, key: string): string {
    if key in row then row[key] else ""
  }

  /** `row.get(primary) or row.get(secondary) or ""`: a missing or empty cell falls
      through to the next. */
  function LabelCell(row: map<string, string>, primary: string, secondary: string): (cell: string)
    ensures Cell(row, primary) != "" ==> cell == row[primary]
    ensures Cell(row, primary) == "" ==> cell == Cell(row, secondary)
  {
    if primary in row && row[primary] != "" then row[primary]
    else if secondary in row && row[secondary] != "" then row[secondary]
    else ""
  }

  /** What the trainer reads from a CSV file: one entry per row in each list. */
  datatype Dataset = Dataset(
    descriptions: seq<string>,
    cweLabels: seq<seq<string>>,
    capecLabels: seq<seq<string>>)

  const EmptyDatasetMessage: string := "Dataset is empty \U{2013} expected at least one row"

  /** `d`, `cwe` and `capec` are what `row` contributes: its stripped
      description and its parsed CWE and CAPEC labels, each label column read from
      its singular header and then its plural one. */
  predicate RowLoaded(row: map<string, string>, d: string, cwe: seq<string>, capec: seq<string>) {
    && d == Strip(Cell(row, "description"))
    && cwe == ParseLabels(LabelCell(row, "cwe", "cwes"))
    && capec == ParseLabels(LabelCell(row, "capec", "capecs"))
  }

  /** The loop of `load_dataset`: one pass over the rows, appending what each row
      gives to three parallel lists. */
  method MapRows<R, A, B, C>(rows: seq<R>, first: R -> A, second: R -> B, third: R -> C)
    returns (firsts: seq<A>, seconds: seq<B>, thirds: seq<C>)
    ensures |firsts| == |rows| && |seconds| == |rows| && |thirds| == |rows|
    ensures forall i :: 0 <= i < |rows| ==> firsts[i] == first(rows[i]) && seconds[i] == second(rows[i]) && thirds[i] == third(rows[i])
  {
    firsts, seconds, thirds := [], [], [];
    var i := 0;
    while i < |rows|
      invariant 0 <= i <= |rows|
      invariant |firsts| == i && |seconds| == i && |thirds| == i
      invariant forall j :: 0 <= j < i ==> firsts[j] == first(rows[j]) && seconds[j] == second(rows[j]) && thirds[j] == third(rows[j])
    {
      firsts, seconds, thirds := firsts + [first(rows[i])], seconds + [second(rows[i])], thirds + [third(rows[i])];
      i := i + 1;
    }
  }

  /** `load_dataset` over already-read rows: one entry per row in each list, in
      row order; no rows is an error. */
  method LoadDataset(rows: seq<map<string, string>>) returns (r: Result<Dataset, string>)
    ensures r.Failure? <==> |rows| == 0
    ensures r.Failure? ==> r.error == EmptyDatasetMessage
    ensures r.Success? ==>
      && |r.value.descriptions| == |rows|
      && |r.value.cweLabels| == |rows|
      && |r.value.capecLabels| == |rows|
    ensures r.Success? ==> forall i :: 0 <= i < |rows| ==>
      RowLoaded(rows[i], r.value.descriptions[i], r.value.cweLabels[i], r.value.capecLabels[i])
  {
    var descriptions, cweLabels, capecLabels := MapRows(rows,
      row => Strip(Cell(row, "description")),
      row => ParseLabels(LabelCell(row, "cwe", "cwes")),
      row => ParseLabels(LabelCell(row, "capec", "capecs")));
    if |descriptions| == 0 {
      return Failure(EmptyDatasetMessage);
    }
    return Success(Dataset(descriptions, cweLabels, capecLabels));
  }

  /** Every loaded description has no surrounding whitespace and every loaded
      label is a well-formed token. */
  lemma {:induction false} LoadedDatasetClean(rows: seq<map<string, string>>, d: Dataset)
    requires |d.descriptions| == |rows| && |d.cweLabels| == |rows| && |d.capecLabels| == |rows|
    requires forall i :: 0 <= i < |rows| ==>
      RowLoaded(rows[i], d.descriptions[i], d.cweLabels[i], d.capecLabels[i])
    ensures forall i :: 0 <= i < |rows| ==> Trimmed(d.descriptions[i])
    ensures forall i, t :: 0 <= i < |rows| && t in d.cweLabels[i] ==> WellFormedLabel(t)
    ensures forall i, t :: 0 <= i < |rows| && t in d.capecLabels[i] ==> WellFormedLabel(t)
  {
    forall i | 0 <= i < |rows|
      ensures Trimmed(d.descriptions[i])
      ensures forall t :: t in d.cweLabels[i] ==> WellFormedLabel(t)
      ensures forall t :: t in d.capecLabels[i] ==> WellFormedLabel(t)
    {
      StripTrimmed(Cell(rows[i], "description"));
      ParseLabelsWellFormed(LabelCell(rows[i], "cwe", "cwes"));
      ParseLabelsWellFormed(LabelCell(rows[i], "capec", "capecs"));
    }
  }
}

=== FILE: wrappers.dfy ===
/** Failure-carrying datatypes shared by the rest of the model: a value that may be
    absent, a computation that may fail with an error, and a check that may fail. */
module Wrappers {

  /** Python's `Optional[T]`: `None` or a present value. */
  datatype Option<+T> = None | Some(value: T)

  /** A computation that either produced a value or raised an error. */
  datatype Result<+T, +E> = Success(value: T) | Failure(error: E)

  /** A check that either passed or raised an error; it carries no value. */
  datatype Outcome<+E> = Pass | Fail(error: E)
}
